=== FILE: README.md ===
# Nasiya survey bot: the survey flow engine in Dafny

This project models the survey core of the Nasiya-savdo Telegram bot (`main.py`).
The bot holds one session per user (`ctx.user_data`). The session has a position
`q_index` in a fixed, linear question list, the `answers` record, one
multi-select buffer per question (`multi:<qid>`) and a region-picker page
(`region_page`). Three handlers move the session on:

- `on_go_start` starts a fresh record;
- `on_callback` handles button presses: `noop`, `regpage:`, `reg:`, `ans:`,
  `mul:` and `mul_done:`;
- `on_text` handles typed answers to text, number and percent questions.

`send_question` asks the current question. Past the end it calls `finalize`,
which hands the record to storage and clears the session.

Each handler is modelled as a pure function from a session and an update to an
`Outcome`. An outcome is the next session plus the kind of reaction: silent,
"invalid", redraw of the keyboard, the next prompt, saved, or a raised
exception. Around the handlers sit the small pure helpers the core uses:

- `normalize_number` and `parse_admin_ids`;
- the `tr` lookup;
- the callback-data encoding of the keyboards;
- the paging arithmetic of `kb_regions`;
- the multi-select toggle;
- the row flattening of `append_csv` / `try_gs_save_row`.

Modules, one per file:

| file | module | what |
|---|---|---|
| wrappers.dfy | Wrappers | `Option`, for Python's `None` and for raised `ValueError`s |
| strings.dfy | Strings | `strip`, `replace(" ", "")`, `isdigit`, `int`, `str`, `split`, `join` |
| parsing.dfy | Parsing | `normalize_number`, `parse_admin_ids` |
| i18n.dfy | I18n | `LANGS`, `tr` |
| picks.dfy | Picks | the multi-select buffer as a duplicate-free label set, and the toggle |
| callbacks.dfy | Callbacks | callback data: decoding as `on_callback` does, encoding as the keyboards do |
| regions.dfy | Regions | the region lookup, `kb_regions` paging and buttons |
| records.dfy | Records | answer values, `CSV_KEYS`, `CSV_HEADERS_UZ`, the row flattening |
| survey.dfy | Survey | question kinds, the 32-question list by id and kind, defaults |
| flow.dfy | Flow | the session, the handlers, and properties of whole sessions |

Modelling choices:

- **Absent session keys.** They read as their defaults: language "uz",
  position 0, page 0, empty buffer. The one exception is `answers`, which is
  an `Option`. Before `go:start`, or after `finalize`, writing an answer raises
  `KeyError`, and the model returns the `Fault` reply with the session unchanged.
- **The multi-select buffer.** The bot keeps it as `list(set)`, whose order
  Python leaves unspecified. The model keeps it as the strictly increasing
  sequence of its labels. That is one canonical spelling per set, so
  "toggling twice restores the buffer" is plain equality.
- **Inputs the bot does not compute.** The timestamp and the sender of a
  `go:start` press are parameters, and so is the region table. `SURVEY` is
  given by ids and kinds only.
- **What `main.py` does, and the model with it.**
  - The question list is linear: no branching, no conditional questions, no
    section headers and no free-text "other" override.
  - `ans:` and `mul:` record whatever label the button carries, unchecked
    against the option list.
  - The multi buffers stay from one question to the next and across a
    `go:start` restart (main.py:647-654 resets only the position, the page
    and the answers); `finalize` clears the whole session (main.py:810), and
    so does `/start` at any point (main.py:622), which is not modelled.
  - An unknown press gets the "invalid" reply.
  - A malformed `regpage:` token or a one-colon `mul:` token raises.
  - The stored record has one fixed list of 37 columns.

## Model

| member | source | states |
|---|---|---|
| Strings.Strip | main.py:577 | `str.strip()`: the result is a slice of the input with nothing but space characters before and after it and no space at either of its own ends; it is empty exactly when the input is all spaces, and is the input itself when that is already unpadded |
| Strings.StripUnique | main.py:577 | an unpadded, non-empty slice of the input with only space characters around it is the result of `strip()` |
| Strings.StripKeepsText | main.py:577 | every character of the input that is not a space survives `strip()` |
| Strings.RemoveBlanks | main.py:577 | `replace(" ", "")`: no U+0020 is left, a character other than U+0020 is in the result exactly when it is in the input, and blank-free input comes back unchanged |
| Strings.RemoveBlanksAppend | main.py:577 | blanks are removed piece by piece, so the kept characters stay in their order |
| Strings.RemoveBlanksChar | main.py:577 | a single U+0020 disappears and any other single character is kept |
| Strings.IntToString | main.py:572 | `str(n)` of an integer cell is a padding-free token of digits and '-' that `int()` reads back as `n`; it starts with '-' exactly when `n` is negative and has no leading zero |
| Strings.NatToString | main.py:572 | `str(n)` of a count is a digit string with no leading zero whose decimal value is `n` |
| Strings.ParseInt | main.py:70 | `int(p)` on a token succeeds exactly on a digit string or a sign followed by a digit string; a digit string reads as its decimal value, and a signed one as that value with the sign applied |
| Strings.Split | main.py:65 | `raw.split(",")` gives at least one piece, no piece holds a comma, and the pieces joined with commas give back `raw` |
| Strings.SplitJoin | main.py:65 | comma-free pieces joined with commas split back into exactly those pieces |
| Parsing.NormalizeNumber | main.py:576-580 | a value exactly when the stripped, blank-free text is a non-empty digit string, and then the decimal value of that text; a visible non-digit anywhere gives `None` |
| Parsing.NormalizeNumberLeadingZero | main.py:576-580 | a leading zero before a digit string does not change the value read |
| Parsing.NormalizeNumberInnerBlank | main.py:576-580 | a U+0020 between two digit strings is ignored: the value is that of the digits written together |
| Parsing.NormalizeNumberPadded | main.py:576-580 | a digit string with space characters before and after it reads as its own decimal value |
| Parsing.NormalizeNumberReadsDecimal | main.py:576-580 | every decimal spelling `str(n)` is read back as `n` |
| Parsing.NormalizeNumberRefuses | main.py:576-580 | `""`, `"abc"` and `"-1"` give `None` |
| Parsing.NormalizeNumberReads0 | main.py:576-580 | `"0"` gives 0 |
| Parsing.NormalizeNumberReads100 | main.py:576-580 | `"100"` gives 100 |
| Parsing.NormalizeNumberReads101 | main.py:576-580 | `"101"` gives 101 |
| Parsing.KeepIds | main.py:65-72 | the loop over comma pieces never yields more ids than there are pieces |
| Parsing.KeepIdsAllValid | main.py:65-72 | when every piece holds an integer, every one is kept, in order |
| Parsing.KeepIdsNoneValid | main.py:65-72 | when no piece holds an integer, the result is empty and nothing fails |
| Parsing.KeepIdsAppend | main.py:65-72 | skipping bad pieces never reorders the kept ones: the result for a concatenation is the concatenation of the results |
| Parsing.ParseAdminIds | main.py:61-73 | `None` or `""` gives `[]`; otherwise there are never more ids than comma pieces |
| Parsing.SpelledPieces | main.py:65-72 | the decimal spelling of an id holds no comma, and as a comma piece gives the id back |
| Parsing.KeepSpelled | main.py:65-72 | the decimal spellings of a list of ids, read piece by piece, give back exactly those ids |
| Parsing.AdminIdsRoundTrip | main.py:61-73 | any list of ids written out comma-separated parses back to that list |
| I18n.Effective | main.py:116 | an unsupported language is replaced by "uz"; a supported one is kept |
| I18n.Tr | main.py:115-117 | the text in the effective language, else the Uzbek text, else the key itself |
| I18n.TrComplete | main.py:78-117 | with every message written in all three languages, a known key always gives the text of the user's language, or the Uzbek text for any other language |
| Picks.SortedCardinality | main.py:719 | a kept label set has as many labels as its set has elements, so `len(selected)` is its length |
| Picks.SortedCanonical | main.py:715 | two kept label sets with the same elements are the same sequence |
| Picks.Insert | main.py:720 | `selected.add(opt)`: still a label set, holding the old labels plus `opt` |
| Picks.Remove | main.py:717 | `selected.remove(opt)`: still a label set, holding the old labels minus `opt` |
| Picks.Toggle | main.py:714-721 | a present option is removed; an absent one is added while the buffer is below the cap and ignored at the cap; a buffer within its cap stays within it |
| Picks.ToggleTwice | main.py:714-721 | toggling the same option twice restores a buffer within its cap, also at the cap |
| Callbacks.IndexOf | main.py:710 | the position of the first colon, which `split(":", 2)` splits at |
| Callbacks.DecodeToggle | main.py:710 | `_, qid, opt = data.split(":", 2)`: raises exactly when no second colon follows, and otherwise splits at the first colon after `mul:`, leaving `qid` colon-free |
| Callbacks.Decode | main.py:664-738 | only `noop` is the no-op press, and a toggle comes only from `mul:` data, read by the split after that prefix |
| Callbacks.DecodeUnknown | main.py:677-738 | data is unknown to `on_callback` exactly when it carries none of its prefixes |
| Callbacks.DecodeRegPage | main.py:677-679 | `regpage:` data is a page request for `int()` of the text after the first colon, failing exactly when that text is neither a digit string nor a sign followed by one |
| Callbacks.DecodeRegPageExamples | main.py:677-679 | `regpage:1` requests page 1 and `regpage:-1` page -1, while `regpage:` and `regpage:1a` make `int()` raise |
| Callbacks.DecodeShape | main.py:684-729 | a decoded answer, region pick, toggle or "done" is its prefix followed by its fields |
| Callbacks.DecodeMul | main.py:709-710 | data starting with `mul:` is read by the toggle split alone |
| Callbacks.DecodeMulDone | main.py:728-729 | data starting with `mul_done:` is a "done" press for the rest of the data |
| Callbacks.DecodeEncode | main.py:512-555 | the callback data of every keyboard button decodes to the action the button was built for |
| Callbacks.EncodeDecode | main.py:684-729 | decodable data other than a page request is exactly the data its action encodes to |
| Regions.Label | main.py:693 | `reg.get(lang, reg["uz"])`: one of the region's names, the one in `lang` when it has one, else the Uzbek one |
| Regions.FindIndex | main.py:686 | the position of the first region with the id, or none exactly when no region has it |
| Regions.Find | main.py:686 | `next(...)`: the first region in the list with that id, or `None` exactly when no region has it |
| Regions.Paginate | main.py:530-552 | the page count is the ceiling of total over page size; the page shown is the request clamped into range; the slice ends at the page start plus the page size or at the total, whichever is smaller, so it holds a full page on every page but the last; "previous" appears exactly when the page is not the first, and "next" exactly when the slice ends before the total |
| Regions.NavRow | main.py:549-554 | the navigation row is the counter with "previous" and "next" around it when they appear; the counter is a no-op press and the arrows request the neighbouring pages |
| Regions.RegionKeyboard | main.py:526-558 | an empty list gives the lone placeholder; otherwise the buttons are the page's slice in list order, each picking its region, the page counter is a no-op press, and the arrows turn to the neighbouring pages |
| Regions.EveryRegionOnItsPage | main.py:530-542 | every region is reachable: page `k / 8` shows region `k` at position `k % 8` |
| Regions.FourteenRegions | main.py:120-135 | with the fourteen regions there are two pages, of eight and of six, and any later page number shows the second |
| Records.FlattenRow | main.py:565-574 | one cell per key, in key order: a missing key or `None` gives "", a list is joined with "; ", anything else is `str(v)` |
| Records.RowIgnoresUnlistedKeys | main.py:567-573 | entries under keys not in the column list never reach the row |
| Records.RowUpdateOneKey | main.py:567-573 | changing one entry changes exactly that key's cells |
| Records.RowMatchesHeader | main.py:471-496 | the header and every row have the same 37 columns |
| Survey.CsvKeysFollowSurvey | main.py:484-496 | the column list is the four metadata keys, the region question and its id, then every other question id in question order |
| Survey.QuestionsUnique | main.py:194-468 | no two of the bot's questions share an id |
| Flow.Finalize | main.py:791-810 | the answers, or an empty record when there are none, are saved and the session is cleared |
| Flow.SendQuestion | main.py:582-588 | the question at the position is asked exactly when the position is inside the list; past the end the session is finalized |
| Flow.AdvanceStores | main.py:703-705 | a stored answer is kept under the current question's id, the position moves on by one, and nothing else changes |
| Flow.OnGoStart | main.py:643-656 | the record is exactly the timestamp, user id, username and language, with "" for a missing sender and `None` for a missing username; the position and page return to 0 and the buffers stay; the first question is asked |
| Flow.OnCallback | main.py:658-739 | the exact conditions for the silent, invalid and raising replies, all of which leave the session unchanged; a page request moves only the unclamped page; a toggle changes only the current question's buffer; an answer, a "done" or a known region is stored under the current question's id, a region also stores its id and resets the page, and an answer or a "done" keeps the page; the position then moves on by exactly one; past the end any press but `noop` finalizes |
| Flow.Accept | main.py:753-788 | a text question takes exactly the non-empty messages; a number question takes exactly the digit strings within its bounds; a percent question takes exactly those from 0 to 100; a button question takes no text |
| Flow.OnText | main.py:741-789 | "invalid" exactly when the stripped message is not accepted, and a raise exactly when it is accepted but there are no answers, both with the session unchanged; otherwise the value is stored under the current id and the position moves on by one; past the end any message finalizes |
| Flow.Respond | main.py:839-843 | in the survey state, a refused update leaves the session unchanged, a redraw keeps position and answers, a prompt is for the session's position, and a save clears the session |
| Flow.KeysFromMembers | main.py:692-733 | the keys the questions from a position on write are their ids, plus the region id when the region question is among them |
| Flow.AnswerAdvances | main.py:684-785 | in a started session, a press or message that answers the current question is accepted |
| Flow.AnswerStep | main.py:684-785 | an accepted answer adds exactly the question's keys to the answers, and saves the session after the last question |
| Flow.AnsweringAllSaves | main.py:582-588 | answering every remaining question in turn ends in the save, and the saved record's keys are exactly the keys it had plus those of the remaining questions (and the region id); the values are not stated |
| Flow.StartThenAnswerAll | main.py:643-656 | `go:start` followed by one answer per question saves exactly the metadata and the questions' keys |
| Flow.ColumnIsWritten | main.py:484-496 | every CSV column is a metadata key or a key some question writes |
| Flow.WrittenIsColumn | main.py:484-496 | every metadata key and every key a question writes is a CSV column |
| Flow.CompletedSurveyFillsEveryColumn | main.py:484-496 | with the bot's own question list, a completed session's record has a value for every CSV column and for nothing else |
| Flow.CapsStayRespected | main.py:714-721 | no update pushes a multi-select buffer past its question's cap, for any question list with unique ids; `Survey.QuestionsUnique` shows the bot's list is one |
| Flow.ToggleTwiceRestores | main.py:709-722 | pressing the same option button twice leaves the session as it was, except that the question now has an (unchanged) buffer entry |
| Flow.ClearedSessionRefusesAnswers | main.py:692-733 | after the session is cleared, no press or message is accepted as an answer until `go:start` |
| Flow.ToggleOnce | main.py:709-722 | one press of an option button of the current multi-select question toggles that option in the question's buffer and changes nothing else |
| Flow.AnswerlessStep | main.py:692-733 | in a session with no answers (cleared, or never started), any update other than `go:start` neither prompts the next question nor saves, keeps the answers absent and the position unchanged |
| Flow.AnswerlessRun | main.py:692-733 | the same over any sequence of updates without a `go:start` |
| Flow.PercentExamples | main.py:777-785 | a percent question takes "0" and "100", and refuses "101", "-1", "abc" and "" |

## Left out

- Telegram transport: message texts, `send_message`, `reply_text`, `edit_reply_markup`, `query.answer()` and the two-per-row button layout. The model gives only the reply kind and the buttons' contents.
- `cmd_start` and `on_lang`. `/start` is a fallback of the survey state with re-entry allowed (main.py:845-846), and `cmd_start` clears the whole session (main.py:622). So `/start` resets the session to `Flow.Blank` at any point, without saving. `on_lang` sets `lang` to the text after `"lang:"` (main.py:629-634), and that text may be any string. Neither handler is a case of `Flow.Respond`, which models only the handler order of the survey state; the `ConversationHandler` states are not modelled either. The conversation therefore does not end after a finalize that happens past the end of the list; in `main.py` that path returns `END`.
- `cmd_export`, `ensure_csv_headers`, the CSV writer and all Google Sheets calls: these are file and network I/O. Only the row flattening is modelled.
- The clock and the sender identity of `on_go_start`: they are parameters.
- The localized prompts, hints and option texts: they are content. `Survey.Questions` keeps only ids and kinds.
- The message table itself: `I18n.Tr` takes any table.
- The region table: the region list is a parameter, assumed to give every region an Uzbek name, as the bot's table does.
- Logging and async/await: they have no effect on the session.
- Regions.Label: with the language set to "id", `reg.get(lang, ...)` returns the region's id instead of a name. The model keeps the id apart from the names and does not reproduce this. Only crafted callback data can set such a language.
- Strings.ParseInt: Python's `int()` also accepts surrounding whitespace, underscores between digits and non-ASCII digits. The model takes ASCII digits with an optional sign. This is the form `str(n)` produces and the keyboards send.
- Parsing.NormalizeNumber: `str.isdigit()` also accepts non-ASCII decimal digits and digit-like characters such as superscripts. The model accepts ASCII digits only. For a non-ASCII decimal digit such as "٣", `int()` reads a value, so the bot accepts an answer the model refuses. For a digit-like character such as "²", `isdigit()` is true but `int()` raises `ValueError`, so `on_text` raises where the model answers "invalid".
- Picks.Toggle: the bot stores `list(selected)` in an order Python does not specify. The model stores the labels in increasing order, so the order of a recorded multi-select answer is not modelled.
- Flow.AnsweringAllSaves: states the saved record's keys, not its values. For the bot's own list (`Survey.QuestionsUnique`) no id is written twice. Each single step's value is stated by `Flow.OnText` and `Flow.OnCallback`.

=== FILE: callbacks.dfy ===
/**
 * The callback data the inline keyboards carry and `on_callback` reads back:
 * `noop`, `regpage:<n>`, `reg:<id>`, `ans:<label>`, `mul:<qid>:<opt>` and
 * `mul_done:<qid>`. The data `go:start` is routed to `on_go_start` before this
 * decoding and is not an `Action`.
 */
module Callbacks {
  import opened Wrappers
  import opened Strings

  datatype Action =
    | Noop                              // "noop": page counter and empty-list placeholder
    | RegPage(page: Option<int>)        // "regpage:<n>"; None when int(<n>) raises
    | PickRegion(id: string)            // "reg:<id>"
    | Answer(option: string)            // "ans:<option>"
    | Toggle(qid: string, opt: string)  // "mul:<qid>:<opt>", split at the first two colons
    | BadToggle                         // "mul:<x>" with no second colon: the unpacking raises
    | Done(qid: string)                 // "mul_done:<qid>"
    | Unknown                           // anything else

  /** Index of the first `c` in `s`. */
  function IndexOf(s: string, c: char): (i: nat)
    requires c in s
    ensures i < |s| && s[i] == c && c !in s[..i]
  {
    if s[0] == c then 0
    else
      var k := IndexOf(s[1..], c);
      assert s[..k + 1] == [s[0]] + s[1..][..k];
      k + 1
  }

  lemma PrefixSplit(p: string, data: string)
    requires p <= data
    ensures data == p + data[|p|..]
  {
  }

  /** `_, qid, opt = data.split(":", 2)` on the text after `mul:`: split at its
      first colon, or raise when there is none. */
  function DecodeToggle(rest: string): (a: Action)
    ensures a.Toggle? || a.BadToggle?
    ensures a.BadToggle? <==> ':' !in rest
    ensures a.Toggle? ==> rest == a.qid + ":" + a.opt && ':' !in a.qid
  {
    if ':' in rest then
      var i := IndexOf(rest, ':');
      assert rest == rest[..i] + ":" + rest[i + 1..];
      Toggle(rest[..i], rest[i + 1..])
    else
      BadToggle
  }

  /** How `on_callback` reads callback data: the first matching prefix wins,
      `split(":", 1)` keeps everything after the first colon, and `mul:` data
      is split at its first two colons. */
  function Decode(data: string): (a: Action)
    ensures a == Noop <==> data == "noop"
    ensures a.Toggle? ==> "mul:" <= data && a == DecodeToggle(data[4..])
  {
    if data == "noop" then Noop
    else if "regpage:" <= data then RegPage(ParseInt(data[8..]))
    else if "reg:" <= data then PickRegion(data[4..])
    else if "ans:" <= data then Answer(data[4..])
    else if "mul:" <= data then DecodeToggle(data[4..])
    else if "mul_done:" <= data then Done(data[9..])
    else Unknown
  }

  /** Data is unknown exactly when it carries none of the prefixes. */
  lemma DecodeUnknown(data: string)
    ensures Decode(data).Unknown? <==>
              data != "noop" && !("regpage:" <= data) && !("reg:" <= data) && !("ans:" <= data)
              && !("mul:" <= data) && !("mul_done:" <= data)
  {
    if "mul:" <= data {
      assert !DecodeToggle(data[4..]).Unknown?;
    }
  }

  /** Each decoded answer, region pick, toggle or "done" is its data's prefix
      followed by its fields. */
  lemma DecodeShape(data: string)
    ensures var a := Decode(data);
      && (a.Answer? ==> data == "ans:" + a.option)
      && (a.PickRegion? ==> data == "reg:" + a.id)
      && (a.Done? ==> data == "mul_done:" + a.qid)
      && (a.Toggle? ==> data == "mul:" + a.qid + ":" + a.opt && ':' !in a.qid)
  {
    var a := Decode(data);
    if a.Answer? || a.PickRegion? {
      DecodeShapeShort(data);
    } else if a.Toggle? {
      DecodeShapeToggle(data);
    } else if a.Done? {
      DecodeShapeDone(data);
    }
  }

  lemma DecodeShapeShort(data: string)
    requires Decode(data).Answer? || Decode(data).PickRegion?
    ensures var a := Decode(data);
      && (a.Answer? ==> data == "ans:" + a.option)
      && (a.PickRegion? ==> data == "reg:" + a.id)
  {
    if "reg:" <= data {
      PrefixSplit("reg:", data);
    } else {
      PrefixSplit("ans:", data);
    }
  }

  /** `mul:` followed by `qid:opt` is the toggle data for `qid` and `opt`. */
  lemma ToggleData(data: string, qid: string, opt: string)
    requires "mul:" <= data && data[4..] == qid + ":" + opt
    ensures data == "mul:" + qid + ":" + opt
  {
    PrefixSplit("mul:", data);
    assert "mul:" + (qid + ":" + opt) == "mul:" + qid + ":" + opt;
  }

  lemma DecodeShapeToggle(data: string)
    requires Decode(data).Toggle?
    ensures data == "mul:" + Decode(data).qid + ":" + Decode(data).opt && ':' !in Decode(data).qid
  {
    var a := Decode(data);
    ToggleData(data, a.qid, a.opt);
  }

  lemma DecodeShapeDone(data: string)
    requires Decode(data).Done?
    ensures data == "mul_done:" + Decode(data).qid
  {
    assert "mul_done:" <= data;
    PrefixSplit("mul_done:", data);
  }

  /** The actions a keyboard button can carry. */
  predicate Encodable(a: Action) {
    match a
    case Noop => true
    case RegPage(p) => p.Some?
    case PickRegion(_) => true
    case Answer(_) => true
    case Toggle(qid, _) => ':' !in qid
    case Done(_) => true
    case BadToggle => false
    case Unknown => false
  }

  /** The callback data the keyboards build (`kb_choice`, `kb_multi`, `kb_regions`). */
  function Encode(a: Action): string
    requires Encodable(a)
  {
    match a
    case Noop => "noop"
    case RegPage(p) => "regpage:" + IntToString(p.value)
    case PickRegion(id) => "reg:" + id
    case Answer(option) => "ans:" + option
    case Toggle(qid, opt) => "mul:" + qid + ":" + opt
    case Done(qid) => "mul_done:" + qid
  }

  lemma DecodeEncodePage(n: int)
    ensures Decode(Encode(RegPage(Some(n)))) == RegPage(Some(n))
  {
    var data := Encode(RegPage(Some(n)));
    assert data[..8] == "regpage:" && data[8..] == IntToString(n);
  }

  lemma DecodeEncodeRegion(id: string)
    ensures Decode(Encode(PickRegion(id))) == PickRegion(id)
  {
    var data := Encode(PickRegion(id));
    assert data[0] == 'r' && data[3] == ':' && data[..4] == "reg:" && data[4..] == id;
  }

  lemma DecodeEncodeAnswer(option: string)
    ensures Decode(Encode(Answer(option))) == Answer(option)
  {
    var data := Encode(Answer(option));
    assert data[0] == 'a' && data[..4] == "ans:" && data[4..] == option;
  }

  lemma DecodeToggleSplits(qid: string, opt: string)
    requires ':' !in qid
    ensures DecodeToggle(qid + ":" + opt) == Toggle(qid, opt)
  {
    var rest := qid + ":" + opt;
    assert rest[|qid|] == ':';
    var i := IndexOf(rest, ':');
    assert forall k :: 0 <= k < |qid| ==> rest[k] == qid[k];
    assert i == |qid|;
    assert rest[..i] == qid && rest[i + 1..] == opt;
  }

  /** Data starting with `regpage:` is a page request whose page is
      `int()` of the rest, or the raising `None` when `int()` refuses it. */
  lemma DecodeRegPage(data: string)
    requires "regpage:" <= data
    ensures Decode(data) == RegPage(ParseInt(data[8..]))
    ensures Decode(data).page.None? <==>
      !IsDigitString(data[8..]) && !(|data| > 9 && (data[8] == '-' || data[8] == '+') && IsDigitString(data[9..]))
  {
    assert data != "noop" by { assert |data| >= 8; }
    if |data| > 9 {
      assert data[8..][1..] == data[9..];
    }
  }

  /** Page tokens `on_callback` reads, and ones on which `int()` raises. */
  lemma DecodeRegPageExamples()
    ensures Decode("regpage:1") == RegPage(Some(1))
    ensures Decode("regpage:-1") == RegPage(Some(-1))
    ensures Decode("regpage:") == RegPage(None)
    ensures Decode("regpage:1a") == RegPage(None)
  {
    DecodeRegPage("regpage:1");
    assert "regpage:1"[8..] == "1";
    DecodeRegPage("regpage:-1");
    assert "regpage:-1"[8..] == "-1" && "-1"[1..] == "1";
    DecodeRegPage("regpage:");
    assert "regpage:"[8..] == "";
    DecodeRegPage("regpage:1a");
    assert "regpage:1a"[8..] == "1a" && !IsDigit("1a"[1]);
  }

  /** Data starting with `mul:` is read by the toggle split alone. */
  lemma DecodeMul(data: string)
    requires "mul:" <= data
    ensures Decode(data) == DecodeToggle(data[4..])
  {
    assert data[0] == 'm' && data[3] == ':';
    assert data != "noop" && !("regpage:" <= data) && !("reg:" <= data) && !("ans:" <= data);
  }

  /** Data starting with `mul_done:` is a "done" press for the rest. */
  lemma DecodeMulDone(data: string)
    requires "mul_done:" <= data
    ensures Decode(data) == Done(data[9..])
  {
    assert data[0] == 'm' && data[3] == '_';
    assert data != "noop" && !("regpage:" <= data) && !("reg:" <= data) && !("ans:" <= data) && !("mul:" <= data);
  }

  lemma DecodeEncodeToggle(qid: string, opt: string)
    requires ':' !in qid
    ensures Decode(Encode(Toggle(qid, opt))) == Toggle(qid, opt)
  {
    var data := Encode(Toggle(qid, opt));
    assert data[..4] == "mul:" && data[4..] == qid + ":" + opt;
    DecodeMul(data);
    DecodeToggleSplits(qid, opt);
  }

  lemma DecodeEncodeDone(qid: string)
    ensures Decode(Encode(Done(qid))) == Done(qid)
  {
    var data := Encode(Done(qid));
    assert data[..9] == "mul_done:" && data[9..] == qid;
    DecodeMulDone(data);
  }

  /** Every button's data decodes to the action it was built for. */
  lemma DecodeEncode(a: Action)
    requires Encodable(a)
    ensures Decode(Encode(a)) == a
  {
    match a
    case Noop =>
    case RegPage(p) => DecodeEncodePage(p.value);
    case PickRegion(id) => DecodeEncodeRegion(id);
    case Answer(option) => DecodeEncodeAnswer(option);
    case Toggle(qid, opt) => DecodeEncodeToggle(qid, opt);
    case Done(qid) => DecodeEncodeDone(qid);
  }

  /** Conversely, decodable data other than a page request is exactly the
      data its action encodes to (page tokens may be spelled non-canonically,
      e.g. "regpage:07"). */
  lemma EncodeDecode(data: string)
    requires var a := Decode(data); !a.RegPage? && !a.BadToggle? && !a.Unknown?
    ensures Encodable(Decode(data)) && Encode(Decode(data)) == data
  {
    DecodeShape(data);
  }
}

=== FILE: flow.dfy ===
/**
 * The survey flow engine: the per-user session `ctx.user_data` and the three
 * handlers of the survey conversation state (`on_go_start`, `on_callback`,
 * `on_text`) together with `send_question` and `finalize`, as pure step
 * functions from a session and an update to the next session and the bot's
 * reaction. Message texts and keyboards are not produced; the reaction says
 * only what kind of answer the user gets.
 */
module Flow {
  import opened Wrappers
  import opened Strings
  import Picks
  import opened Callbacks
  import Regions
  import opened Records
  import opened Survey
  import Parsing

  /** A multi-select buffer: a duplicate-free set of option labels. */
  type LabelSet = b: seq<string> | Picks.Sorted(b) witness []

  /** `ctx.user_data`. Missing keys read as their defaults (`lang` "uz",
      `q_index` 0, `region_page` 0, an empty buffer), except `answers`, whose
      absence makes every write to it raise: `answers` is `None` then. */
  datatype UserData = UserData(
    lang: string,                   // "lang"
    qIndex: nat,                    // "q_index"
    answers: Option<Record>,        // "answers"
    picks: map<string, LabelSet>,   // "multi:<qid>", by qid
    regionPage: int                 // "region_page", unclamped
  )

  /** What `ctx.user_data.clear()` leaves. */
  const Blank: UserData := UserData("uz", 0, None, map[], 0)

  /** `ctx.user_data.get(f"multi:{qid}", [])`. */
  function Buffer(d: UserData, qid: string): LabelSet {
    if qid in d.picks then d.picks[qid] else []
  }

  /** How the bot reacts to one update. */
  datatype Reply =
    | Silent              // the handler returns without a message
    | Invalid             // the "invalid" message
    | Redraw              // the current keyboard is edited in place
    | Prompt(index: nat)  // question `index` is sent
    | Saved(record: Record) // `finalize`: the record goes to storage, the session is cleared
    | Fault               // the handler raises (KeyError, ValueError)

  datatype Outcome = Outcome(data: UserData, reply: Reply)

  /** The reply leaves the session as it was. */
  predicate Rejected(r: Reply) {
    r.Silent? || r.Invalid? || r.Fault?
  }

  /** `finalize`: the answers (an empty record if there are none) are handed to
      storage and the session is cleared. */
  function Finalize(d: UserData): (o: Outcome)
    ensures o.data == Blank && o.reply.Saved?
    ensures d.answers.Some? ==> o.reply.record == d.answers.value
    ensures d.answers.None? ==> o.reply.record == map[]
  {
    Outcome(Blank, Saved(d.answers.GetOr(map[])))
  }

  /** `send_question`: ask the question at `q_index`, or finalize past the end. */
  function SendQuestion(survey: seq<Question>, d: UserData): (o: Outcome)
    ensures d.qIndex < |survey| <==> o.reply.Prompt?
    ensures o.reply.Prompt? ==> o.data == d && o.reply.index == d.qIndex
    ensures !o.reply.Prompt? ==> o == Finalize(d)
  {
    if d.qIndex >= |survey| then Finalize(d) else Outcome(d, Prompt(d.qIndex))
  }

  /** Store the new answers, move to the next question and send it. */
  function Advance(survey: seq<Question>, d: UserData, answers: Record): Outcome {
    SendQuestion(survey, d.(answers := Some(answers), qIndex := d.qIndex + 1))
  }

  /** The keys a region answer writes besides the question's own. */
  function Extra(q: Question): set<string> {
    if q.kind.RegionPick? then {RegionIdKey} else {}
  }

  /** `after` is the session's answers with the current question answered:
      the question's id is now present, the region question has also written
      its id, and every other entry is as it was. */
  predicate Stored(survey: seq<Question>, d: UserData, after: Record) {
    && d.qIndex < |survey|
    && d.answers.Some?
    && var q := survey[d.qIndex];
    && after.Keys == d.answers.value.Keys + {q.id} + Extra(q)
    && forall k :: k in d.answers.value && k != q.id && k !in Extra(q) ==> after[k] == d.answers.value[k]
  }

  /** The step accepted an answer: the next question was sent, or this was the
      last question and the session was saved. */
  predicate Advanced(survey: seq<Question>, d: UserData, o: Outcome) {
    o.reply.Prompt? || (o.reply.Saved? && d.qIndex < |survey|)
  }

  /** The answers after an accepted step: the session's, or the saved record. */
  function Entry(o: Outcome): Record {
    if o.reply.Saved? then o.reply.record else o.data.answers.GetOr(map[])
  }

  /** What every accepted answer does: it is stored under the current question's
      id, `q_index` moves on by exactly one, and nothing else is touched. */
  predicate AdvancedBy(survey: seq<Question>, d: UserData, o: Outcome) {
    && Stored(survey, d, Entry(o))
    && (o.reply.Prompt? ==>
          && o.reply.index == o.data.qIndex == d.qIndex + 1 < |survey|
          && o.data.lang == d.lang && o.data.picks == d.picks)
    && (o.reply.Saved? ==> d.qIndex + 1 == |survey| && o.data == Blank)
  }

  lemma AdvanceStores(survey: seq<Question>, d: UserData, v: Value)
    requires d.qIndex < |survey| && d.answers.Some? && !survey[d.qIndex].kind.RegionPick?
    ensures var o := Advance(survey, d, d.answers.value[survey[d.qIndex].id := v]);
      Advanced(survey, d, o) && AdvancedBy(survey, d, o) && Entry(o)[survey[d.qIndex].id] == v
      && (o.reply.Prompt? ==> o.data.regionPage == d.regionPage)
  {
  }

  // ---------------------------------------------------------------------------
  // on_go_start

  /** `update.effective_user`: the numeric id and the optional username. */
  datatype User = User(id: int, username: Option<string>)

  /** `on_go_start`: a fresh record of the session's metadata, the first
      question and the first region page. The multi-select buffers of an
      earlier run are not cleared. */
  function OnGoStart(survey: seq<Question>, d: UserData, stamp: string, user: Option<User>): (o: Outcome)
    ensures var meta := Entry(o);
      && (|survey| > 0 <==> o.reply.Prompt?)
      && (o.reply.Prompt? ==>
            && o.reply.index == 0
            && o.data == d.(qIndex := 0, regionPage := 0, answers := o.data.answers)
            && o.data.answers.Some?)
      && (!o.reply.Prompt? ==> o.reply.Saved? && o.data == Blank)
      && meta.Keys == {"timestamp", "user_id", "username", "language"}
      && meta["timestamp"] == Str(stamp)
      && meta["language"] == Str(d.lang)
      && (user.None? ==> meta["user_id"] == Str("") && meta["username"] == Str(""))
      && (user.Some? ==> meta["user_id"] == Int(user.value.id))
      && (user.Some? && user.value.username.None? ==> meta["username"] == Null)
      && (user.Some? && user.value.username.Some? ==> meta["username"] == Str(user.value.username.value))
  {
    var userId := if user.Some? then Int(user.value.id) else Str("");
    var username :=
      if user.None? then Str("")
      else if user.value.username.None? then Null
      else Str(user.value.username.value);
    var meta := map[
      "timestamp" := Str(stamp),
      "user_id" := userId,
      "username" := username,
      "language" := Str(d.lang)
    ];
    SendQuestion(survey, d.(qIndex := 0, regionPage := 0, answers := Some(meta)))
  }

  // ---------------------------------------------------------------------------
  // on_callback

  /** The action is one the current question's kind handles; any other makes
      `on_callback` fall through to the "invalid" reply. */
  predicate Fits(a: Action, k: Kind) {
    match a
    case RegPage(_) => k.RegionPick?
    case PickRegion(_) => k.RegionPick?
    case Answer(_) => k.Choice?
    case Toggle(_, _) => k.Multi?
    case BadToggle => k.Multi?
    case Done(_) => k.Multi?
    case Noop => true
    case Unknown => false
  }

  /** `on_callback` for any data other than `go:start`. */
  function OnCallback(survey: seq<Question>, regions: seq<Regions.Region>, d: UserData, data: string): (o: Outcome)
    requires Regions.AllNamed(regions)
    // Nothing but an accepted answer, a page turn or a toggle changes the session.
    ensures Rejected(o.reply) ==> o.data == d
    // The session's survey is over: any button finalizes.
    ensures o.reply.Saved? && d.qIndex >= |survey| <==> data != "noop" && d.qIndex >= |survey|
    ensures o.reply.Saved? && d.qIndex >= |survey| ==> o == Finalize(d)
    // Which presses are silently dropped, refused, or raise.
    ensures o.reply.Silent? <==>
      data == "noop"
      || (d.qIndex < |survey| && survey[d.qIndex].kind.Multi?
          && var a := Decode(data); (a.Toggle? || a.Done?) && a.qid != survey[d.qIndex].id)
    ensures o.reply.Invalid? <==>
      d.qIndex < |survey|
      && var a := Decode(data);
      (!Fits(a, survey[d.qIndex].kind) || (a.PickRegion? && Regions.Find(regions, a.id).None?))
    ensures o.reply.Fault? <==>
      d.qIndex < |survey|
      && var a := Decode(data); var q := survey[d.qIndex];
      && Fits(a, q.kind)
      && ((a.RegPage? && a.page.None?)
          || a.BadToggle?
          || (d.answers.None?
              && (a.Answer?
                  || (a.Done? && a.qid == q.id)
                  || (a.PickRegion? && Regions.Find(regions, a.id).Some?))))
    // A page turn moves the region page, unclamped, and nothing else.
    ensures o.reply.Redraw? && Decode(data).RegPage? ==>
      o.data == d.(regionPage := Decode(data).page.value)
    // A toggle changes the current question's buffer and nothing else.
    ensures o.reply.Redraw? && !Decode(data).RegPage? ==>
      && d.qIndex < |survey|
      && var q := survey[d.qIndex];
      && q.kind.Multi? && Decode(data).Toggle? && Decode(data).qid == q.id
      && o.data == d.(picks := d.picks[q.id := Picks.Toggle(Buffer(d, q.id), Decode(data).opt, Cap(q.kind))])
    // An accepted answer: stored under the current id, one question further.
    ensures Advanced(survey, d, o) ==> AdvancedBy(survey, d, o)
    ensures Advanced(survey, d, o) && Decode(data).Answer? ==>
      Entry(o)[survey[d.qIndex].id] == Str(Decode(data).option)
    ensures Advanced(survey, d, o) && Decode(data).Done? ==>
      Entry(o)[survey[d.qIndex].id] == List(Buffer(d, survey[d.qIndex].id))
    ensures Advanced(survey, d, o) && Decode(data).PickRegion? ==>
      var region := Regions.Find(regions, Decode(data).id);
      && region.Some?
      && (survey[d.qIndex].id != RegionIdKey ==> Entry(o)[RegionIdKey] == Str(Decode(data).id))
      && Entry(o)[survey[d.qIndex].id] == Str(Regions.Label(region.value, d.lang))
      && (o.reply.Prompt? ==> o.data.regionPage == 0)
    ensures Advanced(survey, d, o) && o.reply.Prompt? && !Decode(data).PickRegion? ==>
      o.data.regionPage == d.regionPage
    ensures Advanced(survey, d, o) ==>
      var a := Decode(data); a.Answer? || a.Done? || a.PickRegion?
  {
    var a := Decode(data);
    if a.Noop? then Outcome(d, Silent)
    else if d.qIndex >= |survey| then Finalize(d)
    else
      var q := survey[d.qIndex];
      if !Fits(a, q.kind) then Outcome(d, Invalid)
      else
        match a
        case RegPage(page) =>
          if page.None? then Outcome(d, Fault)
          else Outcome(d.(regionPage := page.value), Redraw)
        case PickRegion(rid) =>
          var found := Regions.Find(regions, rid);
          if found.None? then Outcome(d, Invalid)
          else if d.answers.None? then Outcome(d, Fault)
          else
              var name := Regions.Label(found.value, d.lang);
              var answers := d.answers.value[RegionIdKey := Str(rid)][q.id := Str(name)];
              Advance(survey, d.(regionPage := 0), answers)
        case Answer(option) =>
          if d.answers.None? then Outcome(d, Fault)
          else
            AdvanceStores(survey, d, Str(option));
            Advance(survey, d, d.answers.value[q.id := Str(option)])
        case Toggle(qid, opt) =>
          if qid != q.id then Outcome(d, Silent)
          else
            var selected := Picks.Toggle(Buffer(d, qid), opt, Cap(q.kind));
            Outcome(d.(picks := d.picks[qid := selected]), Redraw)
        case BadToggle => Outcome(d, Fault)
        case Done(qid) =>
          if qid != q.id then Outcome(d, Silent)
          else if d.answers.None? then Outcome(d, Fault)
          else
            AdvanceStores(survey, d, List(Buffer(d, qid)));
            Advance(survey, d, d.answers.value[qid := List(Buffer(d, qid))])
        case Unknown => Outcome(d, Invalid)
  }

  // ---------------------------------------------------------------------------
  // on_text

  /** The value a typed (already stripped) message gives for a question of
      kind `k`, or `None` when the bot answers "invalid": a text question takes
      any non-empty message, a number question a digit string within its
      bounds, a percent question one from 0 to 100, and a question answered by
      buttons takes no text at all. */
  function Accept(k: Kind, msg: string): (r: Option<Value>)
    ensures k.FreeText? ==> (r.Some? <==> msg != "") && (r.Some? ==> r.value == Str(msg))
    ensures k.Number? ==>
      var n := Parsing.NormalizeNumber(msg);
      && (r.Some? <==> n.Some? && Lower(k) <= n.value <= Upper(k))
      && (r.Some? ==> r.value == Int(n.value))
    ensures k.Percent? ==>
      var n := Parsing.NormalizeNumber(msg);
      && (r.Some? <==> n.Some? && n.value <= 100)
      && (r.Some? ==> r.value == Int(n.value) && 0 <= n.value <= 100)
    ensures k.Choice? || k.Multi? || k.RegionPick? ==> r.None?
  {
    match k
    case FreeText => if |msg| < 1 then None else Some(Str(msg))
    case Number(_, _) =>
      var n := Parsing.NormalizeNumber(msg);
      if n.None? then None
      else if n.value < Lower(k) || n.value > Upper(k) then None
      else Some(Int(n.value))
    case Percent =>
      var n := Parsing.NormalizeNumber(msg);
      if n.None? || n.value < 0 || n.value > 100 then None
      else Some(Int(n.value))
    case _ => None
  }

  /** `on_text`: the stripped message answers the current question if `Accept`
      takes it; past the end of the survey any message finalizes. */
  function OnText(survey: seq<Question>, d: UserData, text: string): (o: Outcome)
    ensures Rejected(o.reply) ==> o.data == d
    ensures o.reply.Saved? && d.qIndex >= |survey| <==> d.qIndex >= |survey|
    ensures d.qIndex >= |survey| ==> o == Finalize(d)
    ensures !o.reply.Redraw? && !o.reply.Silent?
    ensures o.reply.Invalid? <==> d.qIndex < |survey| && Accept(survey[d.qIndex].kind, Strip(text)).None?
    ensures o.reply.Fault? <==>
      d.qIndex < |survey| && Accept(survey[d.qIndex].kind, Strip(text)).Some? && d.answers.None?
    ensures Advanced(survey, d, o) ==>
      && AdvancedBy(survey, d, o)
      && Entry(o)[survey[d.qIndex].id] == Accept(survey[d.qIndex].kind, Strip(text)).value
      && (o.reply.Prompt? ==> o.data.regionPage == d.regionPage)
  {
    if d.qIndex >= |survey| then Finalize(d)
    else
      var q := survey[d.qIndex];
      var msg := Strip(text);
      match Accept(q.kind, msg)
      case None => Outcome(d, Invalid)
      case Some(v) =>
        if d.answers.None? then Outcome(d, Fault)
        else
          AdvanceStores(survey, d, v);
          Advance(survey, d, d.answers.value[q.id := v])
  }

  // ---------------------------------------------------------------------------
  // The survey conversation state

  /** An update while the survey runs: a button press, which carries the time
      and the sender `on_go_start` records, or a typed non-command message. */
  datatype Event =
    | Press(data: string, stamp: string, user: Option<User>)
    | Type(text: string)

  /** The `^go:start$` pattern of the first callback handler; Python's `$` also
      matches before a final newline. */
  predicate IsGoStart(data: string) {
    data == "go:start" || data == "go:start\n"
  }

  /** The handler list of the survey state: `go:start` presses to
      `on_go_start`, every other press to `on_callback`, text to `on_text`. */
  function Respond(survey: seq<Question>, regions: seq<Regions.Region>, d: UserData, e: Event): (o: Outcome)
    requires Regions.AllNamed(regions)
    ensures Rejected(o.reply) ==> o.data == d
    ensures o.reply.Redraw? ==>
      o.data.qIndex == d.qIndex && o.data.answers == d.answers && o.data.lang == d.lang
    ensures o.reply.Prompt? ==> o.reply.index == o.data.qIndex < |survey| && o.data.answers.Some?
    ensures o.reply.Saved? ==> o.data == Blank
  {
    match e
    case Press(data, stamp, user) =>
      if IsGoStart(data) then OnGoStart(survey, d, stamp, user)
      else OnCallback(survey, regions, d, data)
    case Type(text) => OnText(survey, d, text)
  }

  // ---------------------------------------------------------------------------
  // Properties of whole sessions

  /** The answer keys the questions from index `i` on write. */
  function KeysFrom(survey: seq<Question>, i: nat): set<string>
    decreases |survey| - i
  {
    if i >= |survey| then {} else {survey[i].id} + Extra(survey[i]) + KeysFrom(survey, i + 1)
  }

  lemma KeysFromUnfold(survey: seq<Question>, i: nat)
    requires i < |survey|
    ensures KeysFrom(survey, i) == {survey[i].id} + Extra(survey[i]) + KeysFrom(survey, i + 1)
    ensures i + 1 == |survey| ==> KeysFrom(survey, i + 1) == {}
  {
  }

  /** A key is written by the questions from `i` on exactly when it is one of
      their ids, or the region id and one of them is the region question. */
  lemma {:induction false} KeysFromMembers(survey: seq<Question>, i: nat, k: string)
    ensures k in KeysFrom(survey, i) <==>
      (exists j :: i <= j < |survey| && survey[j].id == k)
      || (k == RegionIdKey && exists j :: i <= j < |survey| && survey[j].kind.RegionPick?)
    decreases |survey| - i
  {
    if i < |survey| {
      KeysFromMembers(survey, i + 1, k);
      if k == RegionIdKey && survey[i].kind.RegionPick? {
        assert k in Extra(survey[i]);
      }
      if exists j :: i <= j < |survey| && survey[j].id == k {
        var j :| i <= j < |survey| && survey[j].id == k;
        if j > i { assert i + 1 <= j; }
      }
      if k == RegionIdKey && exists j :: i <= j < |survey| && survey[j].kind.RegionPick? {
        var j :| i <= j < |survey| && survey[j].kind.RegionPick?;
        if j > i { assert i + 1 <= j; }
      }
    }
  }

  /** A press or message that answers question `q`: a choice button, the
      question's own "done" button, a button of a known region, or a typed
      message the question accepts. The labels themselves are not checked. */
  predicate Answers(q: Question, regions: seq<Regions.Region>, e: Event) {
    match e
    case Press(data, _, _) =>
      && !IsGoStart(data)
      && var a := Decode(data);
      && (q.kind.Choice? ==> a.Answer?)
      && (q.kind.Multi? ==> a == Done(q.id))
      && (q.kind.RegionPick? ==> a.PickRegion? && Regions.Find(regions, a.id).Some?)
      && (q.kind.Choice? || q.kind.Multi? || q.kind.RegionPick?)
    case Type(text) => Accept(q.kind, Strip(text)).Some?
  }

  /** One answering update, in a session that has been started, is accepted. */
  lemma AnswerAdvances(survey: seq<Question>, regions: seq<Regions.Region>, d: UserData, e: Event)
    requires Regions.AllNamed(regions)
    requires d.qIndex < |survey| && d.answers.Some?
    requires Answers(survey[d.qIndex], regions, e)
    ensures var o := Respond(survey, regions, d, e);
      Advanced(survey, d, o) && AdvancedBy(survey, d, o)
  {
    var o := Respond(survey, regions, d, e);
    if e.Press? {
      var a := Decode(e.data);
      assert !o.reply.Redraw?;
    }
  }

  /** The updates `es` applied one after the other; the outcome of the last. */
  function Run(survey: seq<Question>, regions: seq<Regions.Region>, d: UserData, es: seq<Event>): Outcome
    requires Regions.AllNamed(regions)
    requires |es| > 0
    decreases |es|
  {
    var o := Respond(survey, regions, d, es[0]);
    if |es| == 1 then o else Run(survey, regions, o.data, es[1..])
  }

  /** One accepted answer, as far as the answer keys and the position go. */
  lemma AnswerStep(survey: seq<Question>, regions: seq<Regions.Region>, d: UserData, e: Event)
    requires Regions.AllNamed(regions)
    requires d.qIndex < |survey| && d.answers.Some?
    requires Answers(survey[d.qIndex], regions, e)
    ensures var o := Respond(survey, regions, d, e);
      var keys := d.answers.value.Keys + {survey[d.qIndex].id} + Extra(survey[d.qIndex]);
      && (d.qIndex + 1 == |survey| ==> o.reply.Saved? && o.data == Blank && o.reply.record.Keys == keys)
      && (d.qIndex + 1 < |survey| ==>
            o.reply.Prompt? && o.data.qIndex == d.qIndex + 1 && o.data.answers.Some?
            && o.data.answers.value.Keys == keys)
  {
    AnswerAdvances(survey, regions, d, e);
  }

  lemma RunUnfold(survey: seq<Question>, regions: seq<Regions.Region>, d: UserData, es: seq<Event>)
    requires Regions.AllNamed(regions)
    requires |es| > 1
    ensures Run(survey, regions, d, es) == Run(survey, regions, Respond(survey, regions, d, es[0]).data, es[1..])
  {
  }

  /** Answers to the questions from `i` on are, past the first, answers to
      the questions from `i + 1` on. */
  lemma AnswersShift(survey: seq<Question>, regions: seq<Regions.Region>, i: nat, next: nat, es: seq<Event>)
    requires |es| > 1 && i + |es| <= |survey| && next == i + 1
    requires forall k :: 0 <= k < |es| ==> Answers(survey[i + k], regions, es[k])
    ensures forall k :: 0 <= k < |es[1..]| ==> Answers(survey[next + k], regions, es[1..][k])
  {
    forall k | 0 <= k < |es[1..]| ensures Answers(survey[next + k], regions, es[1..][k]) {
      var j := k + 1;
      assert Answers(survey[i + j], regions, es[j]);
      assert survey[next + k] == survey[i + j];
      assert es[1..][k] == es[j];
    }
  }

  /** `es` answers the questions from `i` on, one update per question. */
  predicate AllAnswer(survey: seq<Question>, regions: seq<Regions.Region>, i: nat, es: seq<Event>)
    decreases |es|
  {
    && i + |es| <= |survey|
    && (|es| == 0 || (Answers(survey[i], regions, es[0]) && AllAnswer(survey, regions, i + 1, es[1..])))
  }

  /** An answer to question `i` followed by answers to the questions from
      `next` on answers the questions from `i` on. */
  lemma AllAnswerCons(survey: seq<Question>, regions: seq<Regions.Region>, i: nat, next: nat, es: seq<Event>)
    requires |es| > 0 && next == i + 1 && i + |es| <= |survey|
    requires forall k :: 0 <= k < |es| ==> Answers(survey[i + k], regions, es[k])
    requires AllAnswer(survey, regions, next, es[1..])
    ensures AllAnswer(survey, regions, i, es)
  {
    assert Answers(survey[i + 0], regions, es[0]);
  }

  lemma {:induction false} AllAnswerFromForall(survey: seq<Question>, regions: seq<Regions.Region>, i: nat, es: seq<Event>)
    requires i + |es| <= |survey|
    requires forall k :: 0 <= k < |es| ==> Answers(survey[i + k], regions, es[k])
    ensures AllAnswer(survey, regions, i, es)
    decreases |es|
  {
    if |es| > 0 {
      if |es| > 1 {
        AnswersShift(survey, regions, i, i + 1, es);
      }
      AllAnswerFromForall(survey, regions, i + 1, es[1..]);
      AllAnswerCons(survey, regions, i, i + 1, es);
    }
  }

  /** A started session at question `d.qIndex`, and updates `es` that answer
      it and every later question, one update per question. */
  predicate AnsweringRest(survey: seq<Question>, regions: seq<Regions.Region>, d: UserData, es: seq<Event>) {
    && Regions.AllNamed(regions)
    && d.answers.Some? && |es| > 0 && d.qIndex + |es| == |survey|
    && AllAnswer(survey, regions, d.qIndex, es)
  }

  /** Answering the last question saves the answers with its keys added. */
  lemma AnswerLast(survey: seq<Question>, regions: seq<Regions.Region>, d: UserData, es: seq<Event>)
    requires AnsweringRest(survey, regions, d, es) && |es| == 1
    ensures var o := Run(survey, regions, d, es);
      && o.reply.Saved? && o.data == Blank
      && o.reply.record.Keys == d.answers.value.Keys + KeysFrom(survey, d.qIndex)
  {
    AnswerStep(survey, regions, d, es[0]);
    KeysFromUnfold(survey, d.qIndex);
  }

  /** Past its first update, a run answering the questions from `i` on
      answers those from `next` on. */
  lemma AllAnswerTail(survey: seq<Question>, regions: seq<Regions.Region>, i: nat, next: nat, es: seq<Event>)
    requires |es| > 0 && next == i + 1 && AllAnswer(survey, regions, i, es)
    ensures i < |survey| && Answers(survey[i], regions, es[0])
    ensures AllAnswer(survey, regions, next, es[1..])
  {
  }

  /** One accepted answer that is not the last update of a run: the session
      it leaves behind is one question further, has the question's keys
      added, and the rest of the run starts from it. */
  lemma AnswerThenContinue(survey: seq<Question>, regions: seq<Regions.Region>, d: UserData, es: seq<Event>)
    returns (d': UserData)
    requires Regions.AllNamed(regions)
    requires d.answers.Some? && |es| > 1 && d.qIndex + |es| == |survey|
    requires Answers(survey[d.qIndex], regions, es[0])
    ensures d'.answers.Some? && d'.qIndex == d.qIndex + 1
    ensures d'.answers.value.Keys == d.answers.value.Keys + {survey[d.qIndex].id} + Extra(survey[d.qIndex])
    ensures Run(survey, regions, d, es) == Run(survey, regions, d', es[1..])
  {
    AnswerStep(survey, regions, d, es[0]);
    RunUnfold(survey, regions, d, es);
    d' := Respond(survey, regions, d, es[0]).data;
  }

  /** One answered question of a longer run, with the rest of the run
      answering the questions left. */
  lemma AnswerThenRest(survey: seq<Question>, regions: seq<Regions.Region>, d: UserData, es: seq<Event>)
    returns (d': UserData)
    requires AnsweringRest(survey, regions, d, es) && |es| > 1
    ensures AnsweringRest(survey, regions, d', es[1..]) && d'.qIndex == d.qIndex + 1
    ensures d'.answers.value.Keys == d.answers.value.Keys + {survey[d.qIndex].id} + Extra(survey[d.qIndex])
    ensures Run(survey, regions, d, es) == Run(survey, regions, d', es[1..])
  {
    AllAnswerTail(survey, regions, d.qIndex, d.qIndex + 1, es);
    d' := AnswerThenContinue(survey, regions, d, es);
  }

  /** The keys a run saves, regrouped one question earlier. */
  lemma KeysAfterStep(survey: seq<Question>, before: set<string>, i: nat, next: nat, after: set<string>, saved: set<string>)
    requires i < |survey| && next == i + 1
    requires after == before + {survey[i].id} + Extra(survey[i])
    requires saved == after + KeysFrom(survey, next)
    ensures saved == before + KeysFrom(survey, i)
  {
    KeysFromUnfold(survey, i);
  }

  lemma {:induction false} AnsweringAllFrom(survey: seq<Question>, regions: seq<Regions.Region>, d: UserData, es: seq<Event>)
    requires AnsweringRest(survey, regions, d, es)
    ensures var o := Run(survey, regions, d, es);
      && o.reply.Saved? && o.data == Blank
      && o.reply.record.Keys == d.answers.value.Keys + KeysFrom(survey, d.qIndex)
    decreases |es|
  {
    if |es| == 1 {
      AnswerLast(survey, regions, d, es);
    } else {
      var d' := AnswerThenRest(survey, regions, d, es);
      AnsweringAllFrom(survey, regions, d', es[1..]);
      var o := Run(survey, regions, d', es[1..]);
      KeysAfterStep(survey, d.answers.value.Keys, d.qIndex, d'.qIndex, d'.answers.value.Keys, o.reply.record.Keys);
    }
  }

  /** Answering every remaining question in turn ends the survey: the session
      is saved and cleared, and the saved record's keys are exactly the keys it
      had plus those of every remaining question (and the region id). */
  lemma AnsweringAllSaves(survey: seq<Question>, regions: seq<Regions.Region>, d: UserData, es: seq<Event>)
    requires Regions.AllNamed(regions)
    requires d.answers.Some? && |es| > 0 && d.qIndex + |es| == |survey|
    requires forall i :: 0 <= i < |es| ==> Answers(survey[d.qIndex + i], regions, es[i])
    ensures var o := Run(survey, regions, d, es);
      && o.reply.Saved? && o.data == Blank
      && o.reply.record.Keys == d.answers.value.Keys + KeysFrom(survey, d.qIndex)
  {
    AllAnswerFromForall(survey, regions, d.qIndex, es);
    AnsweringAllFrom(survey, regions, d, es);
  }

  /** The keys `on_go_start` writes. */
  const MetaSet: set<string> := {"timestamp", "user_id", "username", "language"}

  /** The shape of the bot's CSV header relative to its questions: the
      metadata keys, the first question (the region pick) and the region id,
      then the other question ids in order. */
  predicate ColumnsFollow(survey: seq<Question>, keys: seq<string>) {
    && |survey| > 0 && survey[0].kind.RegionPick?
    && keys == MetaKeys + [survey[0].id, RegionIdKey] + Ids(survey[1..])
  }

  /** Under that shape, every column is a metadata key or a key some question writes. */
  lemma ColumnsAreWritten(survey: seq<Question>, keys: seq<string>, k: string)
    requires ColumnsFollow(survey, keys) && k in keys
    ensures k in MetaSet || k in KeysFrom(survey, 0)
  {
    KeysFromMembers(survey, 0, k);
    var c :| 0 <= c < |keys| && keys[c] == k;
    if c < 4 {
      assert k == MetaKeys[c];
    } else if c == 4 {
      assert survey[0].id == k;
    } else if c == 5 {
      assert survey[0].kind.RegionPick?;
    } else {
      assert Ids(survey[1..])[c - 6] == k;
      assert survey[c - 5].id == k;
    }
  }

  /** Under that shape, every metadata key and every key a question writes is a column. */
  lemma WrittenAreColumns(survey: seq<Question>, keys: seq<string>, k: string)
    requires ColumnsFollow(survey, keys)
    requires k in MetaSet || k in KeysFrom(survey, 0)
    ensures k in keys
  {
    KeysFromMembers(survey, 0, k);
    if exists j :: 0 <= j < |survey| && survey[j].id == k {
      var j :| 0 <= j < |survey| && survey[j].id == k;
      if j == 0 {
        assert keys[4] == k;
      } else {
        assert Ids(survey[1..])[j - 1] == k;
        assert keys[j + 5] == k;
      }
    } else if k == RegionIdKey {
      assert keys[5] == k;
    } else {
      assert k == keys[0] || k == keys[1] || k == keys[2] || k == keys[3];
    }
  }

  lemma ColumnIsWritten(k: string)
    requires k in CsvKeys
    ensures k in MetaSet || k in KeysFrom(Questions, 0)
  {
    CsvKeysFollowSurvey();
    ColumnsAreWritten(Questions, CsvKeys, k);
  }

  lemma WrittenIsColumn(k: string)
    requires k in MetaSet || k in KeysFrom(Questions, 0)
    ensures k in CsvKeys
  {
    CsvKeysFollowSurvey();
    WrittenAreColumns(Questions, CsvKeys, k);
  }

  /** A session started with `go:start` and then answered question by question
      saves the metadata and exactly the answer keys of the questions. */
  lemma StartThenAnswerAll(
    survey: seq<Question>, regions: seq<Regions.Region>, d: UserData, stamp: string, user: Option<User>, es: seq<Event>)
    requires Regions.AllNamed(regions)
    requires |es| == |survey| > 0
    requires forall i :: 0 <= i < |es| ==> Answers(survey[i], regions, es[i])
    ensures var start := OnGoStart(survey, d, stamp, user);
      var o := Run(survey, regions, start.data, es);
      o.reply.Saved? && o.reply.record.Keys == MetaSet + KeysFrom(survey, 0)
  {
    var start := OnGoStart(survey, d, stamp, user);
    assert start.reply.Prompt? && start.data.qIndex == 0;
    AnsweringAllSaves(survey, regions, start.data, es);
  }

  /** With the bot's own question list, that record has a value for every
      column of the CSV file, and for nothing else. */
  lemma CompletedSurveyFillsEveryColumn(
    regions: seq<Regions.Region>, d: UserData, stamp: string, user: Option<User>, es: seq<Event>)
    requires Regions.AllNamed(regions)
    requires |es| == |Questions|
    requires forall i :: 0 <= i < |es| ==> Answers(Questions[i], regions, es[i])
    ensures |es| > 0
    ensures var start := OnGoStart(Questions, d, stamp, user);
      var o := Run(Questions, regions, start.data, es);
      o.reply.Saved? && o.reply.record.Keys == set k | k in CsvKeys
  {
    CsvKeysFollowSurvey();
    StartThenAnswerAll(Questions, regions, d, stamp, user, es);
    var o := Run(Questions, regions, OnGoStart(Questions, d, stamp, user).data, es);
    forall k | k in CsvKeys ensures k in o.reply.record.Keys {
      ColumnIsWritten(k);
    }
    forall k | k in o.reply.record.Keys ensures k in CsvKeys {
      WrittenIsColumn(k);
    }
  }

  /** Every multi-select buffer of the survey respects its question's cap. */
  predicate CapsRespected(survey: seq<Question>, d: UserData) {
    forall i :: 0 <= i < |survey| && survey[i].kind.Multi? && survey[i].id in d.picks ==>
      Picks.WithinCap(d.picks[survey[i].id], Cap(survey[i].kind))
  }

  /** No update ever pushes a buffer past its cap, as long as question ids are
      unique (two multi questions sharing an id would share a buffer). */
  lemma CapsStayRespected(survey: seq<Question>, regions: seq<Regions.Region>, d: UserData, e: Event)
    requires Regions.AllNamed(regions)
    requires UniqueIds(survey) && CapsRespected(survey, d)
    ensures CapsRespected(survey, Respond(survey, regions, d, e).data)
  {
    var o := Respond(survey, regions, d, e);
    if o.reply.Redraw? && e.Press? && !IsGoStart(e.data) && !Decode(e.data).RegPage? {
      var q := survey[d.qIndex];
      var buffer := Buffer(d, q.id);
      assert Picks.WithinCap(buffer, Cap(q.kind)) by {
        if q.id in d.picks {
          assert survey[d.qIndex].id in d.picks;
        }
      }
      forall i | 0 <= i < |survey| && survey[i].kind.Multi? && survey[i].id in o.data.picks
        ensures Picks.WithinCap(o.data.picks[survey[i].id], Cap(survey[i].kind))
      {
        if survey[i].id == q.id {
          assert i == d.qIndex;
        }
      }
    }
  }

  /** One press of an option button of the current multi-select question
      toggles the option in that question's buffer and changes nothing else. */
  lemma ToggleOnce(survey: seq<Question>, regions: seq<Regions.Region>, d: UserData, opt: string)
    requires Regions.AllNamed(regions)
    requires d.qIndex < |survey| && survey[d.qIndex].kind.Multi? && ':' !in survey[d.qIndex].id
    ensures var q := survey[d.qIndex];
      var once := OnCallback(survey, regions, d, Encode(Toggle(q.id, opt)));
      && once.reply.Redraw?
      && once.data == d.(picks := d.picks[q.id := Picks.Toggle(Buffer(d, q.id), opt, Cap(q.kind))])
  {
    DecodeEncode(Toggle(survey[d.qIndex].id, opt));
  }

  /** Pressing the same option button twice gives back the buffer the question
      had, even at the cap, and touches nothing else. */
  lemma ToggleTwiceRestores(survey: seq<Question>, regions: seq<Regions.Region>, d: UserData, opt: string)
    requires Regions.AllNamed(regions)
    requires d.qIndex < |survey| && survey[d.qIndex].kind.Multi? && ':' !in survey[d.qIndex].id
    requires Picks.WithinCap(Buffer(d, survey[d.qIndex].id), Cap(survey[d.qIndex].kind))
    ensures var q := survey[d.qIndex];
      var data := Encode(Toggle(q.id, opt));
      var once := OnCallback(survey, regions, d, data);
      var twice := OnCallback(survey, regions, once.data, data);
      && once.reply.Redraw? && twice.reply.Redraw?
      && Buffer(twice.data, q.id) == Buffer(d, q.id)
      && twice.data == d.(picks := d.picks[q.id := Buffer(d, q.id)])
      && twice.data.picks.Keys == d.picks.Keys + {q.id}
  {
    var q := survey[d.qIndex];
    var data := Encode(Toggle(q.id, opt));
    var t1 := Picks.Toggle(Buffer(d, q.id), opt, Cap(q.kind));
    ToggleOnce(survey, regions, d, opt);
    var d1 := OnCallback(survey, regions, d, data).data;
    assert d1 == d.(picks := d.picks[q.id := t1]);
    ToggleOnce(survey, regions, d1, opt);
    var d2 := OnCallback(survey, regions, d1, data).data;
    assert Buffer(d1, q.id) == t1;
    Picks.ToggleTwice(Buffer(d, q.id), opt, Cap(q.kind));
    assert d2 == d1.(picks := d1.picks[q.id := Buffer(d, q.id)]);
    assert d1.picks[q.id := Buffer(d, q.id)] == d.picks[q.id := Buffer(d, q.id)];
  }

  /** After `finalize` has cleared the session, no answer is accepted until
      `go:start` is pressed again: every answer write raises, because the
      answers are gone. */
  lemma ClearedSessionRefusesAnswers(survey: seq<Question>, regions: seq<Regions.Region>, e: Event)
    requires Regions.AllNamed(regions)
    ensures var o := Respond(survey, regions, Blank, e);
      o.reply.Prompt? ==> e.Press? && IsGoStart(e.data)
    ensures var o := Respond(survey, regions, Blank, e);
      |survey| > 0 && !(e.Press? && IsGoStart(e.data)) ==> !o.reply.Saved? && !o.reply.Prompt?
  {
  }

  /** Without answers — after `finalize`, or before the first `go:start` —
      no update other than `go:start` accepts an answer or saves: the session
      keeps no answers and stays on its question. */
  lemma AnswerlessStep(survey: seq<Question>, regions: seq<Regions.Region>, d: UserData, e: Event)
    requires Regions.AllNamed(regions)
    requires d.answers.None? && d.qIndex < |survey|
    requires !(e.Press? && IsGoStart(e.data))
    ensures var o := Respond(survey, regions, d, e);
      && !o.reply.Prompt? && !o.reply.Saved?
      && o.data.answers.None? && o.data.qIndex == d.qIndex
  {
  }

  /** The same over any run of updates none of which is `go:start`. */
  lemma {:induction false} AnswerlessRun(survey: seq<Question>, regions: seq<Regions.Region>, d: UserData, es: seq<Event>)
    requires Regions.AllNamed(regions)
    requires d.answers.None? && d.qIndex < |survey| && |es| > 0
    requires forall k :: 0 <= k < |es| ==> !(es[k].Press? && IsGoStart(es[k].data))
    ensures var o := Run(survey, regions, d, es);
      && !o.reply.Prompt? && !o.reply.Saved?
      && o.data.answers.None? && o.data.qIndex == d.qIndex
    decreases |es|
  {
    AnswerlessStep(survey, regions, d, es[0]);
    if |es| > 1 {
      var d1 := Respond(survey, regions, d, es[0]).data;
      assert forall k :: 0 <= k < |es[1..]| ==> es[1..][k] == es[k + 1];
      AnswerlessRun(survey, regions, d1, es[1..]);
    }
  }

  /** The percent rule on concrete inputs: 0 and 100 are taken, 101, a negative
      number, letters and an empty message are refused. */
  lemma PercentExamples()
    ensures Accept(Percent, "0") == Some(Int(0))
    ensures Accept(Percent, "100") == Some(Int(100))
    ensures Accept(Percent, "101") == None
    ensures Accept(Percent, "-1") == None
    ensures Accept(Percent, "abc") == None
    ensures Accept(Percent, "") == None
  {
    Parsing.NormalizeNumberReads0();
    Parsing.NormalizeNumberReads100();
    Parsing.NormalizeNumberReads101();
    Parsing.NormalizeNumberRefuses();
  }
}

=== FILE: i18n.dfy ===
/**
 * The message lookup `tr(lang, key)`: a two-level table from message key to
 * language to text. The texts themselves are content and are left abstract.
 */
module I18n {

  /** The keys of `LANGS`, the languages the bot offers. */
  const Langs: set<string> := {"uz", "ru", "en"}

  /** The message table `T`: message key, then language, then text. */
  type Table = map<string, map<string, string>>

  /** The language actually looked up: an unsupported one counts as Uzbek. */
  function Effective(lang: string): (l: string)
    ensures l in Langs
    ensures lang in Langs ==> l == lang
    ensures lang !in Langs ==> l == "uz"
  {
    if lang in Langs then lang else "uz"
  }

  /** `tr(lang, key)`: the text in the effective language, else the Uzbek text,
      else the key itself. */
  function Tr(table: Table, lang: string, key: string): (s: string)
    ensures key !in table ==> s == key
    ensures key in table && Effective(lang) in table[key] ==> s == table[key][Effective(lang)]
    ensures key in table && Effective(lang) !in table[key] && "uz" in table[key] ==> s == table[key]["uz"]
    ensures key in table && Effective(lang) !in table[key] && "uz" !in table[key] ==> s == key
  {
    var entry := if key in table then table[key] else map[];
    var fallback := if "uz" in entry then entry["uz"] else key;
    var l := Effective(lang);
    if l in entry then entry[l] else fallback
  }

  /** Every message is written in every offered language, as the bot's table is. */
  predicate Complete(table: Table) {
    forall key :: key in table ==> Langs <= table[key].Keys
  }

  /** With a complete table a known message always comes out in the user's
      language if the bot offers it and in Uzbek otherwise, never as the bare
      key. */
  lemma TrComplete(table: Table, lang: string, key: string)
    requires Complete(table) && key in table
    ensures lang in Langs ==> Tr(table, lang, key) == table[key][lang]
    ensures lang !in Langs ==> Tr(table, lang, key) == table[key]["uz"]
    ensures Tr(table, lang, key) in table[key].Values
  {
    assert Effective(lang) in Langs;
  }

  /** Any language the bot does not offer reads exactly like Uzbek. */
  lemma TrUnsupportedIsUzbek(table: Table, lang: string, key: string)
    requires lang !in Langs
    ensures Tr(table, lang, key) == Tr(table, "uz", key)
  {
  }
}

=== FILE: parsing.dfy ===
/**
 * The two small parsers of the bot: `normalize_number`, which reads the
 * answers to number and percent questions, and `parse_admin_ids`, which reads
 * the comma-separated `ADMIN_IDS` setting.
 */
module Parsing {
  import opened Wrappers
  import opened Strings

  /** What `normalize_number` inspects: the input stripped, then every U+0020 removed. */
  function Compact(s: string): string {
    RemoveBlanks(Strip(s))
  }

  /** `normalize_number`: a value exactly when the compacted input is a non-empty
      digit string, and then a non-negative one. Any other visible character
      anywhere (a sign, a letter, a decimal point) makes it `None`. */
  function NormalizeNumber(s: string): (r: Option<int>)
    ensures r.Some? <==> IsDigitString(Compact(s))
    ensures r.Some? ==> r.value >= 0 && r.value == DigitsValue(Compact(s))
    ensures (exists i :: 0 <= i < |s| && !IsSpace(s[i]) && !IsDigit(s[i])) ==> r.None?
  {
    StripKeepsText(s);
    var t := Compact(s);
    if t == "" || !IsDigitString(t) then None else Some(DigitsValue(t))
  }

  /** Whatever `str(n)` prints for a count, `normalize_number` reads back. */
  lemma NormalizeNumberReadsDecimal(n: nat)
    ensures NormalizeNumber(NatToString(n)) == Some(n)
  {
    var s := NatToString(n);
    DigitStringPlain(s);
    assert Strip(s) == s;
    assert RemoveBlanks(s) == s;
  }

  /** The boundary cases: empty, alphabetic and negative inputs are refused. */
  lemma NormalizeNumberRefuses()
    ensures NormalizeNumber("") == None
    ensures NormalizeNumber("abc") == None
    ensures NormalizeNumber("-1") == None
  {
    assert !IsSpace("abc"[0]) && !IsDigit("abc"[0]);
    assert !IsSpace("-1"[0]) && !IsDigit("-1"[0]);
  }

  /** A leading zero changes nothing: "007" reads as 7. */
  lemma {:induction false} DigitsValueLeadingZero(t: string)
    requires forall i :: 0 <= i < |t| ==> IsDigit(t[i])
    ensures var z := "0" + t;
      (forall i :: 0 <= i < |z| ==> IsDigit(z[i])) && DigitsValue(z) == DigitsValue(t)
    decreases |t|
  {
    var z := "0" + t;
    if |t| > 0 {
      assert z[..|z| - 1] == "0" + t[..|t| - 1];
      DigitsValueLeadingZero(t[..|t| - 1]);
    }
  }

  lemma NormalizeNumberLeadingZero(t: string)
    requires IsDigitString(t)
    ensures NormalizeNumber("0" + t) == NormalizeNumber(t) == Some(DigitsValue(t))
  {
    DigitsValueLeadingZero(t);
    DigitStringPlain(t);
    DigitStringPlain("0" + t);
    assert Compact(t) == t;
    assert Compact("0" + t) == "0" + t;
  }

  /** Removing the blanks of `a + " " + b` joins two blank-free pieces. */
  lemma RemoveInnerBlank(a: string, b: string)
    requires ' ' !in a && ' ' !in b
    ensures RemoveBlanks(a + " " + b) == a + b
  {
    RemoveBlanksAppend(a + " ", b);
    RemoveBlanksAppend(a, " ");
    RemoveBlanksChar(' ');
  }

  lemma DigitStringAppend(a: string, b: string)
    requires IsDigitString(a) && IsDigitString(b)
    ensures IsDigitString(a + b)
  {
    var ab := a + b;
    assert forall i :: 0 <= i < |ab| ==> ab[i] == (if i < |a| then a[i] else b[i - |a|]);
  }

  /** A blank between digits is ignored: "1 2" reads as 12. */
  lemma NormalizeNumberInnerBlank(a: string, b: string)
    requires IsDigitString(a) && IsDigitString(b)
    ensures NormalizeNumber(a + " " + b) == NormalizeNumber(a + b) == Some(DigitsValue(a + b))
  {
    DigitStringAppend(a, b);
    DigitStringPlain(a);
    DigitStringPlain(b);
    DigitStringPlain(a + b);
    assert Compact(a + b) == a + b;
    var s := a + " " + b;
    assert Unpadded(s) by {
      assert s[0] == a[0] && s[|s| - 1] == b[|b| - 1];
    }
    RemoveInnerBlank(a, b);
    assert Compact(s) == a + b;
  }

  /** Space characters around the number are ignored: "\t42\n" reads as 42. */
  lemma NormalizeNumberPadded(pre: string, t: string, post: string)
    requires IsDigitString(t)
    requires forall i :: 0 <= i < |pre| ==> IsSpace(pre[i])
    requires forall i :: 0 <= i < |post| ==> IsSpace(post[i])
    ensures NormalizeNumber(pre + t + post) == Some(DigitsValue(t))
  {
    var s := pre + t + post;
    assert s[|pre|..|pre| + |t|] == t;
    assert forall j :: 0 <= j < |pre| ==> s[j] == pre[j];
    assert forall j :: |pre| + |t| <= j < |s| ==> s[j] == post[j - |pre| - |t|];
    assert StrippedAt(s, t, |pre|);
    DigitStringPlain(t);
    StripUnique(s, t, |pre|);
    assert Compact(s) == t;
  }

  lemma NormalizeNumberReads0()
    ensures NormalizeNumber("0") == Some(0)
  {
    DigitStringPlain("0");
    assert Compact("0") == "0";
  }

  lemma NormalizeNumberReads100()
    ensures NormalizeNumber("100") == Some(100)
  {
    DigitStringPlain("100");
    assert Compact("100") == "100";
    assert DigitsValue("1") == 1;
    assert DigitsValue("10") == 10 by { assert "10"[..1] == "1"; }
    assert DigitsValue("100") == 100 by { assert "100"[..2] == "10"; }
  }

  /** Just past the percent range, the value itself is still read. */
  lemma NormalizeNumberReads101()
    ensures NormalizeNumber("101") == Some(101)
  {
    DigitStringPlain("101");
    assert Compact("101") == "101";
    assert DigitsValue("1") == 1;
    assert DigitsValue("10") == 10 by { assert "10"[..1] == "1"; }
    assert DigitsValue("101") == 101 by { assert "101"[..2] == "10"; }
  }

  /** The id one comma piece contributes, if any: the piece is stripped, and an
      empty piece or one `int()` rejects contributes nothing. */
  function PieceId(piece: string): Option<int> {
    var p := Strip(piece);
    if p == "" then None else ParseInt(p)
  }

  /** The loop of `parse_admin_ids` over the comma pieces: the ids of the pieces
      that have one, in order; never more ids than pieces. */
  function KeepIds(pieces: seq<string>): (r: seq<int>)
    ensures |r| <= |pieces|
    decreases |pieces|
  {
    if |pieces| == 0 then []
    else
      var rest := KeepIds(pieces[1..]);
      match PieceId(pieces[0])
      case None => rest
      case Some(v) => [v] + rest
  }

  /** The id a later piece carries lands one place further in the kept ids
      when the first piece's id is kept in front of them. */
  lemma KeptShift(pieces: seq<string>, rest: seq<string>, kept: seq<int>, r: seq<int>, i: int)
    requires |pieces| > 0 && rest == pieces[1..] && 1 <= i < |pieces| && |kept| == |rest|
    requires PieceId(pieces[0]).Some? && r == [PieceId(pieces[0]).value] + kept
    requires PieceId(rest[i - 1]) == Some(kept[i - 1])
    ensures PieceId(pieces[i]) == Some(r[i])
  {
    assert pieces[i] == rest[i - 1];
    assert r[i] == kept[i - 1];
  }

  /** When every piece carries an id, every id is kept, in the pieces' order. */
  lemma {:induction false} KeepIdsAllValid(pieces: seq<string>)
    requires forall i :: 0 <= i < |pieces| ==> PieceId(pieces[i]).Some?
    ensures |KeepIds(pieces)| == |pieces|
    ensures forall i :: 0 <= i < |pieces| ==> PieceId(pieces[i]) == Some(KeepIds(pieces)[i])
    decreases |pieces|
  {
    if |pieces| > 0 {
      var rest := pieces[1..];
      forall i | 0 <= i < |rest| ensures PieceId(rest[i]).Some? {
        assert rest[i] == pieces[i + 1];
      }
      KeepIdsAllValid(rest);
      var kept := KeepIds(rest);
      var r := KeepIds(pieces);
      assert r == [PieceId(pieces[0]).value] + kept;
      forall i | 1 <= i < |pieces| ensures PieceId(pieces[i]) == Some(r[i]) {
        KeptShift(pieces, rest, kept, r, i);
      }
    }
  }

  /** When no piece carries an id, nothing is kept, and nothing fails. */
  lemma {:induction false} KeepIdsNoneValid(pieces: seq<string>)
    requires forall i :: 0 <= i < |pieces| ==> PieceId(pieces[i]).None?
    ensures KeepIds(pieces) == []
    decreases |pieces|
  {
    if |pieces| > 0 {
      KeepIdsNoneValid(pieces[1..]);
    }
  }

  /** Skipping pieces never reorders the kept ones: the result for a
      concatenation is the concatenation of the results. */
  lemma {:induction false} KeepIdsAppend(a: seq<string>, b: seq<string>)
    ensures KeepIds(a + b) == KeepIds(a) + KeepIds(b)
    decreases |a|
  {
    if |a| > 0 {
      assert (a + b)[0] == a[0];
      assert (a + b)[1..] == a[1..] + b;
      KeepIdsAppend(a[1..], b);
    } else {
      assert a + b == b;
    }
  }

  /** `parse_admin_ids`: `[]` for a missing or empty setting, otherwise the kept
      integers of the comma-separated pieces, never more than there are pieces. */
  function ParseAdminIds(raw: Option<string>): (r: seq<int>)
    ensures raw.None? || raw == Some("") ==> r == []
    ensures raw.Some? ==> |r| <= |Split(raw.value, ',')|
  {
    if raw.None? || raw.value == "" then [] else KeepIds(Split(raw.value, ','))
  }

  /** The decimal spellings of a list of ids. */
  function Spell(ids: seq<int>): (r: seq<string>)
    ensures |r| == |ids|
    ensures forall i :: 0 <= i < |r| ==> r[i] == IntToString(ids[i])
  {
    seq(|ids|, i requires 0 <= i < |ids| => IntToString(ids[i]))
  }

  /** Each spelled id is a comma piece that gives that id back. */
  lemma SpelledPieces(ids: seq<int>)
    ensures forall i :: 0 <= i < |ids| ==> ',' !in Spell(ids)[i]
    ensures forall i :: 0 <= i < |ids| ==> PieceId(Spell(ids)[i]) == Some(ids[i])
  {
    var pieces := Spell(ids);
    forall i | 0 <= i < |ids| ensures ',' !in pieces[i] && PieceId(pieces[i]) == Some(ids[i]) {
      assert Strip(pieces[i]) == pieces[i];
    }
  }

  /** The spelled ids, read piece by piece, are the ids. */
  lemma KeepSpelled(ids: seq<int>)
    ensures KeepIds(Spell(ids)) == ids
  {
    var pieces := Spell(ids);
    SpelledPieces(ids);
    KeepIdsAllValid(pieces);
    var r := KeepIds(pieces);
    forall i | 0 <= i < |ids| ensures r[i] == ids[i] {
      assert PieceId(pieces[i]) == Some(r[i]);
      assert PieceId(pieces[i]) == Some(ids[i]);
    }
  }

  /** Any list of ids written out comma-separated is read back exactly. */
  lemma AdminIdsRoundTrip(ids: seq<int>)
    ensures ParseAdminIds(Some(Join(Spell(ids), ","))) == ids
  {
    var pieces := Spell(ids);
    if |ids| > 0 {
      SpelledPieces(ids);
      SplitJoin(pieces, ',');
      var raw := Join(pieces, ",");
      JoinLength(pieces, ",");
      assert raw != "";
      assert ParseAdminIds(Some(raw)) == KeepIds(pieces);
      KeepSpelled(ids);
    }
  }
}

=== FILE: picks.dfy ===
/**
 * The multi-select buffer kept under `multi:<qid>`. The bot holds it as a
 * Python `set` of option labels and stores it back as `list(set)`, whose order
 * Python leaves unspecified. Here the buffer is a strictly increasing sequence
 * of labels (code-point lexicographic order): one canonical spelling per set,
 * so set equality is sequence equality.
 */
module Picks {

  /** Strict lexicographic order on strings, by code point. */
  predicate Less(a: string, b: string)
    decreases |a|
  {
    |b| > 0 && (|a| == 0 || a[0] < b[0] || (a[0] == b[0] && Less(a[1..], b[1..])))
  }

  lemma {:induction false} LessIrreflexive(a: string)
    ensures !Less(a, a)
    decreases |a|
  {
    if |a| > 0 {
      LessIrreflexive(a[1..]);
    }
  }

  lemma {:induction false} LessTransitive(a: string, b: string, c: string)
    requires Less(a, b) && Less(b, c)
    ensures Less(a, c)
    decreases |a|
  {
    if |a| > 0 && a[0] == b[0] && b[0] == c[0] {
      LessTransitive(a[1..], b[1..], c[1..]);
    }
  }

  /** Any two distinct strings are ordered one way or the other. */
  lemma {:induction false} LessTotal(a: string, b: string)
    requires a != b
    ensures Less(a, b) || Less(b, a)
    decreases |a|
  {
    if |a| > 0 && |b| > 0 && a[0] == b[0] {
      assert a == [a[0]] + a[1..] && b == [b[0]] + b[1..];
      LessTotal(a[1..], b[1..]);
    }
  }

  lemma LessAsymmetric(a: string, b: string)
    requires Less(a, b)
    ensures !Less(b, a)
  {
    if Less(b, a) {
      LessTransitive(a, b, a);
      LessIrreflexive(a);
    }
  }

  /** A well-formed buffer: strictly increasing, hence free of duplicates. */
  predicate Sorted(b: seq<string>) {
    forall i, j :: 0 <= i < j < |b| ==> Less(b[i], b[j])
  }

  /** The set of labels a buffer holds, Python's `set(buffer)`. */
  function Elems(b: seq<string>): set<string> {
    set x | x in b
  }

  lemma ElemsCons(h: string, t: seq<string>)
    ensures Elems([h] + t) == {h} + Elems(t)
  {
  }

  lemma ElemsEmpty(b: seq<string>)
    ensures Elems(b) == {} <==> b == []
  {
    if |b| > 0 {
      assert b[0] in Elems(b);
    }
  }

  /** A sorted buffer has no duplicates, so its length is the set's size. */
  lemma {:induction false} SortedCardinality(b: seq<string>)
    requires Sorted(b)
    ensures |Elems(b)| == |b|
    decreases |b|
  {
    if |b| > 0 {
      SortedCardinality(b[1..]);
      assert Elems(b) == {b[0]} + Elems(b[1..]);
      if b[0] in Elems(b[1..]) {
        var j :| 0 <= j < |b[1..]| && b[1..][j] == b[0];
        assert Less(b[0], b[j + 1]);
        LessIrreflexive(b[0]);
      }
    }
  }

  /** Two sorted buffers holding the same labels are the same buffer. */
  lemma {:induction false} SortedCanonical(a: seq<string>, b: seq<string>)
    requires Sorted(a) && Sorted(b)
    requires Elems(a) == Elems(b)
    ensures a == b
    decreases |a|
  {
    if |a| > 0 {
      assert a[0] in Elems(b);
      assert |b| > 0 && b[0] in Elems(a);
      assert a[0] == b[0] by {
        if a[0] != b[0] {
          var j :| 0 <= j < |b| && b[j] == a[0];
          var k :| 0 <= k < |a| && a[k] == b[0];
          assert Less(b[0], a[0]) by { assert j > 0; }
          assert Less(a[0], b[0]) by { assert k > 0; }
          LessAsymmetric(a[0], b[0]);
        }
      }
      assert Elems(a[1..]) == Elems(b[1..]) by {
        forall x | x in Elems(a[1..]) ensures x in Elems(b[1..]) {
          var i :| 0 <= i < |a[1..]| && a[1..][i] == x;
          assert Less(a[0], a[i + 1]);
          if x == b[0] { LessIrreflexive(x); }
          assert x in Elems(a);
          var k :| 0 <= k < |b| && b[k] == x;
          assert b[1..][k - 1] == x;
        }
        forall x | x in Elems(b[1..]) ensures x in Elems(a[1..]) {
          var i :| 0 <= i < |b[1..]| && b[1..][i] == x;
          assert Less(b[0], b[i + 1]);
          if x == a[0] { LessIrreflexive(x); }
          assert x in Elems(b);
          var k :| 0 <= k < |a| && a[k] == x;
          assert a[1..][k - 1] == x;
        }
      }
      SortedCanonical(a[1..], b[1..]);
      assert a == [a[0]] + a[1..] && b == [b[0]] + b[1..];
    } else {
      ElemsEmpty(b);
    }
  }

  /** A sorted buffer is its least label followed by a sorted rest above it. */
  lemma SortedUncons(b: seq<string>)
    requires Sorted(b) && |b| > 0
    ensures Sorted(b[1..])
    ensures Elems(b) == {b[0]} + Elems(b[1..])
    ensures forall y :: y in Elems(b[1..]) ==> Less(b[0], y)
  {
    assert b == [b[0]] + b[1..];
    ElemsCons(b[0], b[1..]);
  }

  /** A label below every label of a sorted buffer may be put in front of it. */
  lemma SortedCons(h: string, t: seq<string>)
    requires Sorted(t)
    requires forall y :: y in Elems(t) ==> Less(h, y)
    ensures Sorted([h] + t)
    ensures Elems([h] + t) == {h} + Elems(t)
  {
    var r := [h] + t;
    forall i, j | 0 <= i < j < |r| ensures Less(r[i], r[j]) {
      assert r[j] == t[j - 1];
      assert t[j - 1] in Elems(t);
      if i > 0 { assert r[i] == t[i - 1]; }
    }
    ElemsCons(h, t);
  }

  /** `b` with `x` added in order (`set.add`). */
  function Insert(b: seq<string>, x: string): (r: seq<string>)
    requires Sorted(b)
    ensures Sorted(r)
    ensures Elems(r) == Elems(b) + {x}
    decreases |b|
  {
    if |b| == 0 then [x]
    else if x == b[0] then
      SortedUncons(b);
      b
    else if Less(x, b[0]) then
      SortedUncons(b);
      forall y | y in Elems(b[1..]) ensures Less(x, y) {
        LessTransitive(x, b[0], y);
      }
      SortedCons(x, b);
      [x] + b
    else
      LessTotal(x, b[0]);
      SortedUncons(b);
      var tail := Insert(b[1..], x);
      SortedCons(b[0], tail);
      [b[0]] + tail
  }

  /** `b` with `x` dropped (`set.remove`). */
  function Remove(b: seq<string>, x: string): (r: seq<string>)
    requires Sorted(b)
    ensures Sorted(r)
    ensures Elems(r) == Elems(b) - {x}
    ensures |r| <= |b|
    decreases |b|
  {
    if |b| == 0 then []
    else
      SortedUncons(b);
      var tail := Remove(b[1..], x);
      if b[0] == x then tail
      else
        SortedCons(b[0], tail);
        [b[0]] + tail
  }

  /** The buffer respects a `max_select` cap. A cap of zero or less never lets a
      label in, so the buffer then stays empty. */
  predicate WithinCap(b: seq<string>, cap: int) {
    |b| <= cap || |b| == 0
  }

  /** One press of an option button (`mul:<qid>:<opt>`): a present label is
      removed; an absent one is added only while the buffer is below the cap,
      and silently ignored at the cap. */
  function Toggle(b: seq<string>, opt: string, cap: int): (r: seq<string>)
    requires Sorted(b)
    ensures Sorted(r)
    ensures opt in b ==> Elems(r) == Elems(b) - {opt}
    ensures opt !in b && |b| < cap ==> Elems(r) == Elems(b) + {opt} && |r| == |b| + 1
    ensures opt !in b && |b| >= cap ==> r == b
    ensures WithinCap(b, cap) ==> WithinCap(r, cap)
  {
    if opt in b then
      Remove(b, opt)
    else if |b| < cap then
      var r := Insert(b, opt);
      SortedCardinality(b);
      SortedCardinality(r);
      assert |Elems(r)| == |Elems(b)| + 1;
      r
    else
      b
  }

  /** Pressing the same option twice restores the buffer, also at the cap. */
  lemma ToggleTwice(b: seq<string>, opt: string, cap: int)
    requires Sorted(b) && WithinCap(b, cap)
    ensures Toggle(Toggle(b, opt, cap), opt, cap) == b
  {
    var once := Toggle(b, opt, cap);
    var twice := Toggle(once, opt, cap);
    if opt in b {
      SortedCardinality(b);
      SortedCardinality(once);
      assert |Elems(once)| == |Elems(b)| - 1;
      assert opt !in Elems(once);
      SortedCanonical(twice, b);
    } else if |b| < cap {
      assert opt in Elems(once);
      SortedCanonical(twice, b);
    }
  }
}

=== FILE: records.dfy ===
/**
 * The answer record a finished session hands to storage, and the flattening
 * `append_csv` and `try_gs_save_row` both apply to it: one text cell per key
 * of a fixed key list, in that order.
 */
module Records {
  import opened Strings

  /** A value stored in the answers dict: `None` (a missing username), a
      string, an integer (ids, numbers, percents), or a list of option labels. */
  datatype Value = Null | Str(s: string) | Int(n: int) | List(items: seq<string>)

  type Record = map<string, Value>

  const ListSeparator: string := "; "

  /** The cell text of one value: `None` gives "", a list is joined with "; ",
      anything else is `str(v)`. */
  function Cell(v: Value): string {
    match v
    case Null => ""
    case Str(s) => s
    case Int(n) => IntToString(n)
    case List(items) => Join(items, ListSeparator)
  }

  /** The cell of key `k`: `row.get(k, "")`, so a missing key gives "". */
  function CellAt(row: Record, k: string): string {
    if k in row then Cell(row[k]) else ""
  }

  /** The flattened row, cell by cell. */
  function Row(row: Record, keys: seq<string>): (r: seq<string>)
    ensures |r| == |keys|
  {
    seq(|keys|, i requires 0 <= i < |keys| => CellAt(row, keys[i]))
  }

  /** The cell loop of `append_csv` (and, identically, of `try_gs_save_row`):
      walk the keys in order and append each key's cell. */
  method FlattenRow(row: Record, keys: seq<string>) returns (out: seq<string>)
    ensures |out| == |keys|
    ensures forall i :: 0 <= i < |keys| ==> out[i] == CellAt(row, keys[i])
    ensures out == Row(row, keys)
  {
    out := [];
    var i := 0;
    while i < |keys|
      invariant 0 <= i <= |keys|
      invariant |out| == i
      invariant forall j :: 0 <= j < i ==> out[j] == CellAt(row, keys[j])
    {
      out := out + [CellAt(row, keys[i])];
      i := i + 1;
    }
  }

  /** Entries under keys the row does not list never reach the file. */
  lemma RowIgnoresUnlistedKeys(row: Record, keys: seq<string>, k: string, v: Value)
    requires k !in keys
    ensures Row(row[k := v], keys) == Row(row, keys)
  {
    assert forall i :: 0 <= i < |keys| ==> keys[i] != k;
  }

  /** Changing one listed key changes exactly the cells of that key. */
  lemma RowUpdateOneKey(row: Record, keys: seq<string>, k: string, v: Value)
    ensures forall i :: 0 <= i < |keys| && keys[i] != k ==> Row(row[k := v], keys)[i] == Row(row, keys)[i]
    ensures forall i :: 0 <= i < |keys| && keys[i] == k ==> Row(row[k := v], keys)[i] == Cell(v)
  {
  }

  /** The internal field names, one per column, in column order. */
  const CsvKeys: seq<string> := [
    "timestamp", "user_id", "username", "language",
    "region_city", "region_city_id",
    "age_group", "gender", "employment", "income",
    "freq_3m", "months_using", "company_name", "avg_purchase",
    "product_types",
    "multi_company_use", "multi_company_debt", "income_share_percent", "debt_burden_checked", "missed_payment",
    "total_cost_clear", "fees_explained", "schedule_given",
    "difficulty_reason", "borrowed_for_payments", "cut_essential_spending", "used_for_cash_need",
    "contact_methods", "aggressive_collection",
    "complaint_submitted", "complaint_resolved", "satisfaction_1_5", "recommend",
    "read_contract", "know_limit", "impulse_buying", "need_stricter_regulation"
  ]

  /** The human-readable (Uzbek) header line written once at the top of the file. */
  const CsvHeaders: seq<string> := [
    "timestamp", "user_id", "username", "language",
    "Yashash hududi (viloyat/shahar)", "Hudud ID",
    "Yosh guruhi", "Jins", "Bandlik holati", "O'rtacha oylik daromad",
    "Oxirgi 3 oy chastotasi", "Foydalanish muddati (oy)", "Kompaniya", "O'rtacha xarid summasi",
    "Asosiy mahsulot/xizmatlar",
    "Bir nechta kompaniya (foydalanadi)", "Bir nechta kompaniya (qarz)", "Daromadga nisbatan %", "Qarz yuki hisobga olinganmi", "Kechikish bo'lganmi",
    "Total cost tushunarli", "Foiz/qo'shimcha to'lovlar tushuntirilgan", "To'lov jadvali berilgan",
    "Qiyinchilik sababi", "To'lov uchun boshqa qarz", "Zarur xarajatni qisqartirdi", "Pul ehtiyoji uchun ishlatgan",
    "Aloqa usullari", "Agressiv undirish",
    "Shikoyat bergan", "Shikoyat hal qilingan", "Qoniqish (1-5)", "Tavsiya qiladi",
    "Shartnoma o'qigan", "Limitni biladi", "Impulsiv xaridlarni ko'paytiradi", "Qattiqroq tartibga solish"
  ]

  /** Every data row lines up with the header: both have 37 columns. */
  lemma RowMatchesHeader(row: Record)
    ensures |CsvHeaders| == |CsvKeys| == 37
    ensures |Row(row, CsvKeys)| == |CsvHeaders|
  {
  }
}

=== FILE: regions.dfy ===
/**
 * The region picker: the `UZB_REGIONS` entries, the lookup `on_callback` does
 * for `reg:<id>`, and the paging arithmetic and buttons of `kb_regions`.
 */
module Regions {
  import opened Wrappers
  import opened Strings
  import opened Callbacks

  /** One entry of the region list: a stable id and its names keyed by language. */
  datatype Region = Region(id: string, names: map<string, string>)

  /** The entry has the Uzbek name, which `r.get(lang, r["uz"])` evaluates
      eagerly whatever the language. */
  predicate HasUzbekName(r: Region) {
    "uz" in r.names
  }

  predicate AllNamed(regions: seq<Region>) {
    forall i :: 0 <= i < |regions| ==> HasUzbekName(regions[i])
  }

  /** The region's name in `lang`, falling back to Uzbek. */
  function Label(r: Region, lang: string): (s: string)
    requires HasUzbekName(r)
    ensures s in r.names.Values
    ensures lang in r.names ==> s == r.names[lang]
    ensures lang !in r.names ==> s == r.names["uz"]
  {
    if lang in r.names then r.names[lang] else r.names["uz"]
  }

  /** Position of the first entry whose id is `rid`. */
  function FindIndex(regions: seq<Region>, rid: string): (k: Option<nat>)
    ensures k.Some? ==> k.value < |regions| && regions[k.value].id == rid
    ensures k.Some? ==> forall j :: 0 <= j < k.value ==> regions[j].id != rid
    ensures k.None? <==> forall j :: 0 <= j < |regions| ==> regions[j].id != rid
    decreases |regions|
  {
    if |regions| == 0 then None
    else if regions[0].id == rid then Some(0)
    else
      match FindIndex(regions[1..], rid)
      case None => None
      case Some(k) => Some(k + 1)
  }

  /** `next((r for r in UZB_REGIONS if r["id"] == rid), None)`: the first entry
      with that id, or `None` exactly when no entry has it. */
  function Find(regions: seq<Region>, rid: string): (r: Option<Region>)
    ensures r.Some? ==> r.value in regions && r.value.id == rid
    ensures r.None? <==> forall j :: 0 <= j < |regions| ==> regions[j].id != rid
    ensures r.Some? ==>
      (exists k :: 0 <= k < |regions| && regions[k] == r.value && (forall j :: 0 <= j < k ==> regions[j].id != rid))
  {
    match FindIndex(regions, rid)
    case None => None
    case Some(k) => Some(regions[k])
  }

  /** `kb_regions` is always called with its default of 8 entries per page. */
  const PerPage: int := 8

  function Min(a: int, b: int): int { if a <= b then a else b }
  function Max(a: int, b: int): int { if a >= b then a else b }

  /** The page actually shown, the page count, the slice `[start, end)` of the
      list it shows, and whether the previous / next controls appear. */
  datatype Page = Page(page: int, pages: int, start: int, end: int, hasPrev: bool, hasNext: bool)

  lemma MulLeq(a: int, b: int, c: int)
    requires a <= b && c >= 0
    ensures a * c <= b * c
  {
  }

  lemma MulMonotone(a: int, b: int, c: int)
    requires c > 0
    ensures a <= b <==> a * c <= b * c
  {
    if a <= b {
      MulLeq(a, b, c);
    } else {
      MulLeq(b + 1, a, c);
    }
  }

  /** The paging arithmetic of `kb_regions` for a non-empty list: the requested
      page is clamped into `[0, pages - 1]` with `pages = ceil(total / perPage)`,
      the slice holds at most `perPage` entries, "previous" appears on every page
      but the first and "next" on every page but the last. */
  function Paginate(total: int, page: int, perPage: int): (p: Page)
    requires total > 0 && perPage > 0
    ensures (p.pages - 1) * perPage < total <= p.pages * perPage
    ensures 0 <= p.page < p.pages
    ensures 0 <= page < p.pages ==> p.page == page
    ensures page < 0 ==> p.page == 0
    ensures page >= p.pages ==> p.page == p.pages - 1
    ensures p.start == p.page * perPage
    ensures 0 <= p.start < p.end <= total && p.end - p.start <= perPage
    ensures p.end == Min(p.start + perPage, total)
    ensures p.page < p.pages - 1 ==> p.end - p.start == perPage
    ensures p.hasPrev <==> p.page > 0
    ensures p.hasNext <==> p.page < p.pages - 1
    ensures p.hasNext <==> p.end < total
  {
    var pages := (total + perPage - 1) / perPage;
    var rem := (total + perPage - 1) % perPage;
    assert pages * perPage == total + perPage - 1 - rem;
    assert (pages - 1) * perPage == pages * perPage - perPage;
    var clamped := Max(0, Min(page, pages - 1));
    var start := clamped * perPage;
    var end := Min(start + perPage, total);
    assert start + perPage == (clamped + 1) * perPage;
    assert clamped < pages - 1 ==> (clamped + 1) * perPage <= (pages - 1) * perPage by {
      if clamped < pages - 1 {
        MulLeq(clamped + 1, pages - 1, perPage);
      }
    }
    MulLeq(0, clamped, perPage);
    Page(clamped, pages, start, end, clamped > 0, end < total)
  }

  /** An inline button: its text and its callback data. */
  datatype Button = Button(text: string, data: string)

  /** The keyboard `kb_regions` builds: the region buttons of the page (laid out
      two per row, which is not modelled) and the navigation row. */
  datatype Keyboard = Keyboard(choices: seq<Button>, nav: seq<Button>)

  const Placeholder: Button := Button("—", "noop")

  /** The button that picks `r`. */
  function RegionButton(r: Region, lang: string): Button
    requires HasUzbekName(r)
  {
    Button(Label(r, lang), Encode(PickRegion(r.id)))
  }

  /** The navigation row of a page: "previous" (if any), the page counter,
      and "next" (if any); the arrows request the neighbouring pages. */
  function NavRow(p: Page): (nav: seq<Button>)
    ensures |nav| == 1 + (if p.hasPrev then 1 else 0) + (if p.hasNext then 1 else 0)
    ensures p.hasPrev ==> Decode(nav[0].data) == RegPage(Some(p.page - 1))
    ensures p.hasNext ==> Decode(nav[|nav| - 1].data) == RegPage(Some(p.page + 1))
    ensures Decode(nav[if p.hasPrev then 1 else 0].data) == Noop
  {
    var prev := if p.hasPrev then [Button("⬅️", Encode(RegPage(Some(p.page - 1))))] else [];
    var counter := Button(IntToString(p.page + 1) + "/" + IntToString(p.pages), Encode(Noop));
    var next := if p.hasNext then [Button("➡️", Encode(RegPage(Some(p.page + 1))))] else [];
    var nav := prev + [counter] + next;
    assert p.hasPrev ==> Decode(nav[0].data) == RegPage(Some(p.page - 1)) by {
      if p.hasPrev {
        assert nav[0] == prev[0];
        DecodeEncode(RegPage(Some(p.page - 1)));
      }
    }
    assert p.hasNext ==> Decode(nav[|nav| - 1].data) == RegPage(Some(p.page + 1)) by {
      if p.hasNext {
        assert nav[|nav| - 1] == next[0];
        DecodeEncode(RegPage(Some(p.page + 1)));
      }
    }
    assert Decode(nav[|prev|].data) == Noop by {
      assert nav[|prev|] == counter;
    }
    nav
  }

  /** `kb_regions(lang, page)`: a lone placeholder for an empty list; otherwise
      the buttons of the clamped page's slice, in list order, and a navigation
      row of "previous" (if any), the page counter, and "next" (if any). */
  function RegionKeyboard(regions: seq<Region>, lang: string, page: int): (k: Keyboard)
    requires AllNamed(regions)
    ensures |regions| == 0 ==> k == Keyboard([], [Placeholder])
    ensures |regions| > 0 ==>
      var p := Paginate(|regions|, page, PerPage);
      && |k.choices| == p.end - p.start <= PerPage
      && (forall i :: 0 <= i < |k.choices| ==> k.choices[i] == RegionButton(regions[p.start + i], lang))
      && |k.nav| == 1 + (if p.hasPrev then 1 else 0) + (if p.hasNext then 1 else 0)
      && (p.hasPrev ==> Decode(k.nav[0].data) == RegPage(Some(p.page - 1)))
      && (p.hasNext ==> Decode(k.nav[|k.nav| - 1].data) == RegPage(Some(p.page + 1)))
      && Decode(k.nav[if p.hasPrev then 1 else 0].data) == Noop
  {
    if |regions| == 0 then
      Keyboard([], [Placeholder])
    else
      var p := Paginate(|regions|, page, PerPage);
      var chunk := regions[p.start..p.end];
      var choices := seq(|chunk|, i requires 0 <= i < |chunk| => RegionButton(chunk[i], lang));
      Keyboard(choices, NavRow(p))
  }

  /** Every region is reachable: asking for page `k / 8` shows region `k`, at
      position `k % 8` of that page. */
  lemma EveryRegionOnItsPage(regions: seq<Region>, lang: string, k: int)
    requires AllNamed(regions)
    requires 0 <= k < |regions|
    ensures var kb := RegionKeyboard(regions, lang, k / PerPage);
      k % PerPage < |kb.choices| && kb.choices[k % PerPage] == RegionButton(regions[k], lang)
  {
    var p := Paginate(|regions|, k / PerPage, PerPage);
    assert k == (k / PerPage) * PerPage + k % PerPage;
    MulMonotone(p.pages, k / PerPage, PerPage);
    assert p.page == k / PerPage;
  }

  /** With the fourteen regions of Uzbekistan there are two pages: eight
      regions and a "next" control, then six and a "previous" control; any
      larger page number shows the last page. */
  lemma FourteenRegions(page: int)
    ensures Paginate(14, 0, PerPage) == Page(0, 2, 0, 8, false, true)
    ensures Paginate(14, 1, PerPage) == Page(1, 2, 8, 14, true, false)
    ensures page >= 1 ==> Paginate(14, page, PerPage) == Page(1, 2, 8, 14, true, false)
  {
  }
}

=== FILE: strings.dfy ===
/**
 * The handful of Python string operations the bot relies on: `str.strip()`,
 * `str.split(sep)`, `sep.join(xs)`, `str.isdigit()`, `int(s)` and `str(n)`.
 * Only what the survey core needs is modelled, over `seq<char>`.
 */
module Strings {
  import opened Wrappers

  /** The characters Python's `str.isspace()` accepts, which are exactly those
      `str.strip()` (with no argument) removes from both ends. */
  predicate IsSpace(c: char) {
    || c == '\t' || c == '\n' || c == '\U{000B}' || c == '\U{000C}' || c == '\r'
    || ('\U{001C}' <= c <= '\U{001F}')
    || c == ' ' || c == '\U{0085}' || c == '\U{00A0}' || c == '\U{1680}'
    || ('\U{2000}' <= c <= '\U{200A}')
    || c == '\U{2028}' || c == '\U{2029}' || c == '\U{202F}' || c == '\U{205F}' || c == '\U{3000}'
  }

  /** Neither end of `s` is a space character. */
  predicate Unpadded(s: string) {
    |s| == 0 || (!IsSpace(s[0]) && !IsSpace(s[|s| - 1]))
  }

  /** `s` with its leading space characters removed. */
  function TrimLeft(s: string): (r: string)
    ensures |r| <= |s| && r == s[|s| - |r|..]
    ensures |r| > 0 ==> !IsSpace(r[0])
    ensures forall i :: 0 <= i < |s| - |r| ==> IsSpace(s[i])
    decreases |s|
  {
    if |s| > 0 && IsSpace(s[0]) then
      var r := TrimLeft(s[1..]);
      assert forall i :: 1 <= i < |s| - |r| ==> s[i] == s[1..][i - 1];
      r
    else
      s
  }

  /** `s` with its trailing space characters removed. */
  function TrimRight(s: string): (r: string)
    ensures |r| <= |s| && r == s[..|r|]
    ensures |r| > 0 ==> !IsSpace(r[|r| - 1])
    ensures forall i :: |r| <= i < |s| ==> IsSpace(s[i])
    decreases |s|
  {
    if |s| > 0 && IsSpace(s[|s| - 1]) then
      var r := TrimRight(s[..|s| - 1]);
      assert forall i :: |r| <= i < |s| - 1 ==> s[i] == s[..|s| - 1][i];
      r
    else
      s
  }

  /** `r` is the slice of `s` starting at `i`, and everything of `s` outside
      that slice is a space character. */
  predicate StrippedAt(s: string, r: string, i: int) {
    && 0 <= i <= |s| - |r|
    && r == s[i..i + |r|]
    && (forall j :: 0 <= j < i ==> IsSpace(s[j]))
    && (forall j :: i + |r| <= j < |s| ==> IsSpace(s[j]))
  }

  /** A prefix of a suffix of `s`, where the suffix starts after spaces and the
      prefix is followed by spaces, is a slice with only spaces around it. */
  lemma PrefixOfSuffix(s: string, left: string, r: string)
    requires |left| <= |s| && left == s[|s| - |left|..]
    requires forall j :: 0 <= j < |s| - |left| ==> IsSpace(s[j])
    requires |r| <= |left| && r == left[..|r|]
    requires forall j :: |r| <= j < |left| ==> IsSpace(left[j])
    ensures StrippedAt(s, r, |s| - |left|)
  {
    var i := |s| - |left|;
    assert r == s[i..i + |r|];
    forall j | i + |r| <= j < |s| ensures IsSpace(s[j]) {
      assert s[j] == left[j - i];
    }
  }

  /** Trimming both ends leaves the slice starting after the leading spaces,
      with nothing but spaces around it. */
  lemma TrimmedSlice(s: string)
    ensures StrippedAt(s, TrimRight(TrimLeft(s)), |s| - |TrimLeft(s)|)
  {
    PrefixOfSuffix(s, TrimLeft(s), TrimRight(TrimLeft(s)));
  }

  /** What an unpadded slice with only spaces around it keeps: nothing exactly
      when `s` is all spaces, and otherwise every character that is not a space. */
  lemma StrippedAtKeeps(s: string, r: string, i: int)
    requires StrippedAt(s, r, i) && Unpadded(r)
    ensures |r| == 0 <==> forall j :: 0 <= j < |s| ==> IsSpace(s[j])
    ensures forall j :: 0 <= j < |s| && !IsSpace(s[j]) ==> s[j] in r
  {
    if |r| > 0 {
      assert s[i] == r[0];
    }
    forall j | 0 <= j < |s| && !IsSpace(s[j]) ensures s[j] in r {
      assert s[j] == r[j - i];
    }
  }

  /** Python's `s.strip()`: the longest middle slice of `s` with no space at either end. */
  function Strip(s: string): (r: string)
    ensures |r| <= |s|
    ensures Unpadded(r)
    ensures exists i :: StrippedAt(s, r, i)
    ensures |r| == 0 <==> forall i :: 0 <= i < |s| ==> IsSpace(s[i])
    ensures Unpadded(s) ==> r == s
  {
    var left := TrimLeft(s);
    var r := TrimRight(left);
    assert |r| > 0 ==> r[0] == left[0];
    TrimmedSlice(s);
    StrippedAtKeeps(s, r, |s| - |left|);
    r
  }

  /** Every character of `s` that is not a space survives the strip. */
  lemma StripKeepsText(s: string)
    ensures forall i :: 0 <= i < |s| && !IsSpace(s[i]) ==> s[i] in Strip(s)
  {
    var r := Strip(s);
    var k :| StrippedAt(s, r, k);
    StrippedAtKeeps(s, r, k);
  }

  /** Two unpadded, non-empty slices of `s` with nothing but space characters
      around them are the same slice. */
  lemma StrippedAtUnique(s: string, r: string, i: int, t: string, k: int)
    requires StrippedAt(s, r, i) && Unpadded(r) && |r| > 0
    requires StrippedAt(s, t, k) && Unpadded(t) && |t| > 0
    ensures k == i && t == r
  {
    assert !IsSpace(s[i]) by { assert s[i] == r[0]; }
    assert !IsSpace(s[k]) by { assert s[k] == t[0]; }
    if k < i {
      assert false;
    } else if k > i {
      assert false;
    }
    var e, f := i + |r| - 1, k + |t| - 1;
    assert !IsSpace(s[e]) by { assert s[e] == r[|r| - 1]; }
    assert !IsSpace(s[f]) by { assert s[f] == t[|t| - 1]; }
    if e < f {
      assert false;
    } else if f < e {
      assert false;
    }
  }

  /** The strip is the only unpadded, non-empty slice with nothing but space
      characters around it. */
  lemma StripUnique(s: string, r: string, i: int)
    requires StrippedAt(s, r, i) && Unpadded(r) && |r| > 0
    ensures Strip(s) == r
  {
    var t := Strip(s);
    var k :| StrippedAt(s, t, k);
    assert |t| > 0 by {
      assert !IsSpace(s[i]) by { assert s[i] == r[0]; }
    }
    StrippedAtUnique(s, r, i, t, k);
  }

  /** Stripping twice is stripping once. */
  lemma StripIdempotent(s: string)
    ensures Strip(Strip(s)) == Strip(s)
  {
  }

  /** Python's `s.replace(" ", "")`: every U+0020 removed, everything else kept in order. */
  function RemoveBlanks(s: string): (r: string)
    ensures ' ' !in r
    ensures |r| <= |s|
    ensures ' ' !in s ==> r == s
    ensures forall c :: c != ' ' ==> (c in r <==> c in s)
  {
    if |s| == 0 then ""
    else if s[0] == ' ' then RemoveBlanks(s[1..])
    else [s[0]] + RemoveBlanks(s[1..])
  }

  /** Blanks are removed piece by piece: the result for a concatenation is the
      concatenation of the results, so the kept characters stay in order. */
  lemma {:induction false} RemoveBlanksAppend(a: string, b: string)
    ensures RemoveBlanks(a + b) == RemoveBlanks(a) + RemoveBlanks(b)
    decreases |a|
  {
    if |a| > 0 {
      assert (a + b)[1..] == a[1..] + b;
      RemoveBlanksAppend(a[1..], b);
    } else {
      assert a + b == b;
    }
  }

  /** On a single character: a blank disappears, anything else stays. */
  lemma RemoveBlanksChar(c: char)
    ensures c == ' ' ==> RemoveBlanks([c]) == ""
    ensures c != ' ' ==> RemoveBlanks([c]) == [c]
  {
    assert [c][1..] == "";
  }

  predicate IsDigit(c: char) {
    '0' <= c <= '9'
  }

  /** Python's `s.isdigit()` restricted to the ASCII digits; like Python, false on "". */
  predicate IsDigitString(s: string) {
    |s| > 0 && forall i :: 0 <= i < |s| ==> IsDigit(s[i])
  }

  function DigitValue(c: char): (d: nat)
    requires IsDigit(c)
    ensures d < 10
  {
    (c as int) - ('0' as int)
  }

  function DigitChar(d: nat): (c: char)
    requires d < 10
    ensures IsDigit(c) && DigitValue(c) == d
  {
    (('0' as int) + d) as char
  }

  /** A digit string has no blanks and no space at either end. */
  lemma DigitStringPlain(s: string)
    requires IsDigitString(s)
    ensures Unpadded(s)
    ensures ' ' !in s
  {
    assert IsDigit(s[0]) && IsDigit(s[|s| - 1]);
  }

  /** The value of a decimal digit string, most significant digit first. */
  function DigitsValue(s: string): nat
    requires forall i :: 0 <= i < |s| ==> IsDigit(s[i])
    decreases |s|
  {
    if |s| == 0 then 0 else DigitsValue(s[..|s| - 1]) * 10 + DigitValue(s[|s| - 1])
  }

  /** Python's `str(n)` for a non-negative `n`: the shortest decimal spelling. */
  function NatToString(n: nat): (r: string)
    ensures IsDigitString(r)
    ensures DigitsValue(r) == n
    ensures |r| > 1 ==> r[0] != '0'
    decreases n
  {
    if n < 10 then [DigitChar(n)]
    else
      var prefix := NatToString(n / 10);
      var r := prefix + [DigitChar(n % 10)];
      assert r[..|r| - 1] == prefix;
      r
  }

  /** Python's `int(s)` on an already stripped token: an optional sign followed by
      one or more ASCII digits; anything else is the `ValueError` case, `None`. */
  function ParseInt(s: string): (r: Option<int>)
    ensures r.Some? ==> |s| > 0
    ensures r.Some? && r.value < 0 ==> s[0] == '-'
    ensures r.Some? <==> IsDigitString(s) || (|s| > 1 && (s[0] == '-' || s[0] == '+') && IsDigitString(s[1..]))
    ensures IsDigitString(s) ==> r == Some(DigitsValue(s))
    ensures |s| > 1 && s[0] == '-' && IsDigitString(s[1..]) ==> r == Some(-(DigitsValue(s[1..]) as int))
    ensures |s| > 1 && s[0] == '+' && IsDigitString(s[1..]) ==> r == Some(DigitsValue(s[1..]))
    ensures |s| == 0 || (!IsDigit(s[0]) && s[0] != '-' && s[0] != '+') ==> r.None?
  {
    if |s| > 0 && (s[0] == '-' || s[0] == '+') then
      var body := s[1..];
      if IsDigitString(body) then
        var magnitude: int := DigitsValue(body);
        Some(if s[0] == '-' then -magnitude else magnitude)
      else
        None
    else if IsDigitString(s) then
      Some(DigitsValue(s))
    else
      None
  }

  /** Python's `str(n)` for any integer. */
  function IntToString(n: int): (r: string)
    ensures ParseInt(r) == Some(n)
    ensures |r| > 0 && Unpadded(r)
    ensures forall i :: 0 <= i < |r| ==> IsDigit(r[i]) || r[i] == '-'
    ensures r[0] == '-' <==> n < 0
    ensures |r| > 1 ==> r[0] != '0' && (r[0] == '-' ==> r[1] != '0')
  {
    if n < 0 then
      var r := "-" + NatToString(-n);
      assert r[1..] == NatToString(-n);
      r
    else
      NatToString(n)
  }

  /** Python's `sep.join(xs)`. */
  function Join(xs: seq<string>, sep: string): (r: string)
    ensures |xs| == 0 ==> r == ""
    ensures |xs| == 1 ==> r == xs[0]
    decreases |xs|
  {
    if |xs| == 0 then ""
    else if |xs| == 1 then xs[0]
    else xs[0] + sep + Join(xs[1..], sep)
  }

  /** A join is at least as long as its first piece. */
  lemma JoinLength(xs: seq<string>, sep: string)
    requires |xs| > 0
    ensures |Join(xs, sep)| >= |xs[0]|
  {
  }

  /** Python's `s.split(sep)` for a one-character separator: the pieces between
      separators, at least one, none containing `sep`, that join back to `s`. */
  function Split(s: string, sep: char): (r: seq<string>)
    ensures |r| >= 1
    ensures forall i :: 0 <= i < |r| ==> sep !in r[i]
    ensures Join(r, [sep]) == s
    decreases |s|
  {
    if |s| == 0 then [""]
    else
      var rest := Split(s[1..], sep);
      if s[0] == sep then
        assert Join([""] + rest, [sep]) == "" + [sep] + Join(rest, [sep]) by {
          assert ([""] + rest)[1..] == rest;
        }
        [""] + rest
      else
        var r := [[s[0]] + rest[0]] + rest[1..];
        assert Join(r, [sep]) == s by {
          if |rest| == 1 {
            assert r == [[s[0]] + rest[0]];
          } else {
            assert r[1..] == rest[1..];
            assert Join(rest, [sep]) == rest[0] + [sep] + Join(rest[1..], [sep]);
            assert Join(r, [sep]) == [s[0]] + rest[0] + [sep] + Join(rest[1..], [sep]);
          }
        }
        r
  }

  /** A string without the separator splits into itself alone. */
  lemma {:induction false} SplitWithoutSeparator(s: string, sep: char)
    requires sep !in s
    ensures Split(s, sep) == [s]
    decreases |s|
  {
    if |s| > 0 {
      assert sep !in s[1..];
      SplitWithoutSeparator(s[1..], sep);
      assert [s[0]] + s[1..] == s;
    }
  }

  /** Splitting `a + sep + b` peels `a` off as the first piece when `a` has no separator. */
  lemma {:induction false} SplitAfterPiece(a: string, b: string, sep: char)
    requires sep !in a
    ensures Split(a + [sep] + b, sep) == [a] + Split(b, sep)
    decreases |a|
  {
    var s := a + [sep] + b;
    if |a| == 0 {
      assert s[1..] == b;
    } else {
      assert s[1..] == a[1..] + [sep] + b;
      assert sep !in a[1..];
      SplitAfterPiece(a[1..], b, sep);
      assert [a[0]] + a[1..] == a;
    }
  }

  /** Joining separator-free pieces and splitting again gives the pieces back. */
  lemma {:induction false} SplitJoin(xs: seq<string>, sep: char)
    requires |xs| >= 1
    requires forall i :: 0 <= i < |xs| ==> sep !in xs[i]
    ensures Split(Join(xs, [sep]), sep) == xs
    decreases |xs|
  {
    if |xs| == 1 {
      SplitWithoutSeparator(xs[0], sep);
    } else {
      SplitJoin(xs[1..], sep);
      SplitAfterPiece(xs[0], Join(xs[1..], [sep]), sep);
      assert [xs[0]] + xs[1..] == xs;
    }
  }
}

=== FILE: survey.dfy ===
/**
 * The question list `SURVEY`: a linear sequence of questions, each with an id
 * and a kind. Prompts, hints and option texts are display content and are not
 * modelled; in particular `ans:` and `mul:` presses are never checked against
 * the option lists.
 */
module Survey {
  import opened Wrappers
  import Records

  datatype Kind =
    | Choice                                    // "choice": one button press
    | Multi(maxSelect: Option<int>)             // "multi": toggles, then "done"
    | FreeText                                  // "text"
    | Number(min: Option<int>, max: Option<int>) // "number"
    | Percent                                   // "percent"
    | RegionPick                                // "region": paged region buttons

  datatype Question = Question(id: string, kind: Kind)

  /** `q.get("max_select", 3)`. */
  function Cap(k: Kind): int
    requires k.Multi?
  {
    k.maxSelect.GetOr(3)
  }

  /** `q.get("min", -10**9)`. */
  function Lower(k: Kind): int
    requires k.Number?
  {
    k.min.GetOr(-1000000000)
  }

  /** `q.get("max", 10**9)`. */
  function Upper(k: Kind): int
    requires k.Number?
  {
    k.max.GetOr(1000000000)
  }

  /** The extra answers key the region question writes next to its own. */
  const RegionIdKey: string := "region_city_id"

  /** The keys `on_go_start` writes before the first question. */
  const MetaKeys: seq<string> := ["timestamp", "user_id", "username", "language"]

  /** The question ids, in order. */
  function Ids(survey: seq<Question>): (r: seq<string>)
    ensures |r| == |survey|
    ensures forall i :: 0 <= i < |survey| ==> r[i] == survey[i].id
  {
    seq(|survey|, i requires 0 <= i < |survey| => survey[i].id)
  }

  predicate UniqueIds(survey: seq<Question>) {
    forall i, j :: 0 <= i < j < |survey| ==> survey[i].id != survey[j].id
  }

  /** The 32 questions of the bot, by id and kind. */
  const Questions: seq<Question> := [
    Question("region_city", RegionPick),
    Question("age_group", Choice),
    Question("gender", Choice),
    Question("employment", Choice),
    Question("income", Choice),
    Question("freq_3m", Choice),
    Question("months_using", Number(Some(0), Some(240))),
    Question("company_name", FreeText),
    Question("avg_purchase", Choice),
    Question("product_types", Multi(Some(3))),
    Question("multi_company_use", Choice),
    Question("multi_company_debt", Choice),
    Question("income_share_percent", Percent),
    Question("debt_burden_checked", Choice),
    Question("missed_payment", Choice),
    Question("total_cost_clear", Choice),
    Question("fees_explained", Choice),
    Question("schedule_given", Choice),
    Question("difficulty_reason", Choice),
    Question("borrowed_for_payments", Choice),
    Question("cut_essential_spending", Choice),
    Question("used_for_cash_need", Choice),
    Question("contact_methods", Multi(Some(3))),
    Question("aggressive_collection", Choice),
    Question("complaint_submitted", Choice),
    Question("complaint_resolved", Choice),
    Question("satisfaction_1_5", Choice),
    Question("recommend", Choice),
    Question("read_contract", Choice),
    Question("know_limit", Choice),
    Question("impulse_buying", Choice),
    Question("need_stricter_regulation", Choice)
  ]

  /** Every question at an index in `[lo, hi)` has an id different from
      every later question at an index in `[lo', hi')`. */
  predicate IdsApart(s: seq<Question>, lo: nat, hi: nat, lo': nat, hi': nat)
    requires lo <= hi <= |s| && lo' <= hi' <= |s|
  {
    forall i, j :: lo <= i < hi && lo' <= j < hi' && i < j ==> s[i].id != s[j].id
  }

  // The pairs of the 32 questions in blocks of eight, one block pair per
  // lemma, so that each comparison of literal ids stays small.
  lemma BlockApart00() ensures IdsApart(Questions, 0, 8, 0, 8) {}
  lemma BlockApart01() ensures IdsApart(Questions, 0, 8, 8, 16) {}
  lemma BlockApart02() ensures IdsApart(Questions, 0, 8, 16, 24) {}
  lemma BlockApart03() ensures IdsApart(Questions, 0, 8, 24, 32) {}
  lemma BlockApart11() ensures IdsApart(Questions, 8, 16, 8, 16) {}
  lemma BlockApart12() ensures IdsApart(Questions, 8, 16, 16, 24) {}
  lemma BlockApart13() ensures IdsApart(Questions, 8, 16, 24, 32) {}
  lemma BlockApart22() ensures IdsApart(Questions, 16, 24, 16, 24) {}
  lemma BlockApart23() ensures IdsApart(Questions, 16, 24, 24, 32) {}
  lemma BlockApart33() ensures IdsApart(Questions, 24, 32, 24, 32) {}

  /** No two of the bot's questions share an id, so no answer overwrites
      another and each multi-select question has its own buffer. */
  lemma QuestionsUnique()
    ensures UniqueIds(Questions)
  {
    BlockApart00();
    BlockApart01();
    BlockApart02();
    BlockApart03();
    BlockApart11();
    BlockApart12();
    BlockApart13();
    BlockApart22();
    BlockApart23();
    BlockApart33();
  }

  // The column-by-column comparison below is split in blocks of eight.

  lemma TailIds0(i: int)
    requires 0 <= i < 8
    ensures Questions[i + 1].id == Records.CsvKeys[i + 6]
  {
  }

  lemma TailIds1(i: int)
    requires 8 <= i < 16
    ensures Questions[i + 1].id == Records.CsvKeys[i + 6]
  {
  }

  lemma TailIds2(i: int)
    requires 16 <= i < 24
    ensures Questions[i + 1].id == Records.CsvKeys[i + 6]
  {
  }

  lemma TailIds3(i: int)
    requires 24 <= i < 31
    ensures Questions[i + 1].id == Records.CsvKeys[i + 6]
  {
  }

  /** The column list is the session's metadata, the region answer and its id,
      then every other question's answer, in question order. */
  lemma CsvKeysFollowSurvey()
    ensures |Questions| == 32
    ensures Questions[0].id == "region_city" && Questions[0].kind == RegionPick
    ensures Records.CsvKeys == MetaKeys + [Questions[0].id, RegionIdKey] + Ids(Questions[1..])
  {
    var rhs := MetaKeys + [Questions[0].id, RegionIdKey] + Ids(Questions[1..]);
    assert |rhs| == 37;
    forall i | 0 <= i < 37 ensures Records.CsvKeys[i] == rhs[i] {
      if i < 6 {
      } else if i < 14 {
        TailIds0(i - 6);
      } else if i < 22 {
        TailIds1(i - 6);
      } else if i < 30 {
        TailIds2(i - 6);
      } else {
        TailIds3(i - 6);
      }
    }
  }
}

=== FILE: wrappers.dfy ===
/** The optional-value datatype used for Python's `None`-or-value results. */
module Wrappers {

  datatype Option<+T> = None | Some(value: T) {

    /** The value, or `default` when there is none (Python's `x if x is not None else default`). */
    function GetOr(default: T): T {
      match this
      case Some(v) => v
      case None => default
    }
  }
}
